=== FILE: README.md ===
# Azure Spring Apps control plane, modelled in Dafny

This project models the control-plane core of the Azure Spring Apps extension for VS Code. The core has these parts:

- **Service handle** (`EnhancedService`): name, id, and the resource group derived from the id. It also holds the Enterprise-tier predicate, refresh, removal, app creation and app listing.
- **Deployment handle** (`EnhancedDeployment`):
  - the environment-variable key and value validators;
  - the tier-routed artifact-path and JVM-options updates;
  - the scale-settings codec, which turns CPU and memory quantities into strings and parses them back;
  - the environment update and the JVM-options reader.
- **App service** (`AppService`): every operation resolves its target app, then addresses its requests to that app. The operations are start, stop, restart, remove, get or set the active deployment, create or start a deployment, the test and public endpoints, `setPublic`, the upload definition and artifact upload, and log streaming. Most send one request; the artifact upload fetches the upload definition and then uploads the file to its URL, and starting a log stream lists the test keys and then opens the stream.
- **App-name step** (`InputAppNameStep`): the app-creation wizard step that prompts for an app name and validates it.
- **Deployment steps** (`UploadArtifactStep`, `UpdateDeploymentStep`): the two deployment-wizard steps. The first uploads the artifact and, when the SKU name starts with e or E, builds it. The second points the deployment at the result. `DeploymentWizard` runs them in priority order.

The management client is never called. Each operation returns the request it would send: a `Resources.Call`, or an `Exchange` pairing the request with what is made of the response. Responses are parameters:

- fetched resources;
- the upload path and build id;
- the test keys.

JavaScript's `undefined` is `Option.None`. A thrown error before anything is sent is a `Result.Failure`. Examples are a missing target app, which gives a TypeError in the source, and a log-stream instance that is not running.

Two modules model the JavaScript built-ins the code relies on:

- `JsText`: `trim`, `split`, `toLowerCase`, `startsWith` and `endsWith`.
- `JsNumber`: integer printing in template literals, and `parseInt`.

The code makes none of these checks, and neither does the model:

- `start`, `stop` and `restart` do not check that the app has an active deployment. The call goes out with an undefined deployment name.
- A resource id with fewer than four `/` yields an undefined resource group, not an error.
- `getTestEndpoint` prints a missing test endpoint as `undefined` instead of failing.

Source paths below are relative to the repository root.

## Model

| member | source | states |
|---|---|---|
| JsText.Trim | src/service/EnhancedDeployment.ts:28 | the result is the input with only white space removed before and after it; it has no white space at either end; it is empty exactly when the input is all white space; an input with no white space is returned unchanged |
| JsText.TrimIdempotent | src/commands/steps/creation/InputAppNameStep.ts:35 | trimming an already trimmed name changes nothing |
| JsText.ToLower | src/commands/steps/deployment/UploadArtifactStep.ts:27 | same length, and each character is the lower-case form of the input's character at that place |
| JsText.Split | src/service/EnhancedService.ts:74 | one more piece than there are separators; no piece contains the separator; joining the pieces with the separator gives back the input |
| JsText.SplitJoin | src/service/EnhancedService.ts:74 | splitting undoes joining when no piece contains the separator |
| JsText.IndexOf | src/service/EnhancedService.ts:74 | the first occurrence of the character, or the length when there is none; no earlier occurrence |
| JsText.CountOfConcat | src/service/EnhancedService.ts:74 | the number of separators in a concatenation is the sum of the two counts |
| JsText.Utf16Length | src/service/EnhancedDeployment.ts:44 | the length in UTF-16 code units: at least the number of characters and at most twice it |
| JsText.Utf16LengthOfBmp | src/service/EnhancedDeployment.ts:44 | characters up to U+FFFF take one code unit each |
| JsText.Utf16LengthOfAstral | src/service/EnhancedDeployment.ts:44 | characters above U+FFFF take two code units each |
| JsNumber.NatToString | src/service/EnhancedDeployment.ts:82-83 | a non-empty run of decimal digits, with no leading zero except for "0" itself |
| JsNumber.IntToString | src/service/EnhancedDeployment.ts:82-83 | a leading '-' exactly for negative numbers, a digit otherwise, and a digit last |
| JsNumber.DigitRun | src/service/EnhancedDeployment.ts:131-136 | the longest prefix of digits of the radix: every character before it is a digit and the one after is not |
| JsNumber.ParseInt | src/service/EnhancedDeployment.ts:131-136 | a number only when something other than white space is present; a negative result only when the first non-blank character is '-'; never negative when it is a digit |
| JsNumber.BlankParsesToNaN | src/service/EnhancedDeployment.ts:131-136 | blank text gives NaN |
| JsNumber.DigitsValueOfNatToString | src/service/EnhancedDeployment.ts:131-136 | the value of the digits printed for n is n |
| JsNumber.MagnitudeOfPrinted | src/service/EnhancedDeployment.ts:131-136 | printed digits followed by a unit suffix read back as the number; the suffix cannot turn "0" into a hexadecimal prefix |
| JsNumber.ParseIntOfPrinted | src/service/EnhancedDeployment.ts:131-136 | parseInt reads back any printed integer, negative ones included, followed by a unit suffix such as "m", "Mi" or "Gi" |
| EnhancedService.ResourceGroupOf | src/service/EnhancedService.ts:72-75 | the resource group is defined exactly when the id has at least four '/'; it is then the piece at index 4 of the id split on '/', and it never contains '/' |
| EnhancedService.ResourceGroupOfArmId | src/service/EnhancedService.ts:72-75 | for any id made of four '/'-free pieces, each followed by '/', then a '/'-free group g, then nothing or a '/' and anything (so /subscriptions/s/resourceGroups/g/...), the derived group is g |
| EnhancedService.SetRemote | src/service/EnhancedService.ts:72-75 | the snapshot is replaced, name and id are kept, and the cached group agrees with the new snapshot's id |
| EnhancedService.FromResource | src/service/EnhancedService.ts:17-22 | a new handle takes name and id from the resource and is coherent with it |
| EnhancedService.EnterpriseTierIsExact | src/service/EnhancedService.ts:68-70 | Enterprise tier exactly when a SKU with tier "Enterprise" is present; "enterprise" in lower case and a missing SKU are not Enterprise |
| EnhancedService.IsEnterpriseTier | src/service/EnhancedService.ts:68-70 | Enterprise only with a SKU whose tier is exactly "Enterprise"; the lower-case "enterprise" is not |
| EnhancedService.Refresh | src/service/EnhancedService.ts:58-62 | the GET is addressed with the group and name held before the refresh; the identity is kept and the handle stays coherent |
| EnhancedService.RefreshWithSameSnapshot | src/service/EnhancedService.ts:58-62 | refreshing a coherent handle with the snapshot it already holds leaves it unchanged |
| EnhancedService.Remove | src/service/EnhancedService.ts:64-66 | one delete addressed to this service's group and name |
| EnhancedService.RemoveAfterRefresh | src/service/EnhancedService.ts:58-66 | on a coherent handle the delete goes to the group its id names, and refreshing with a snapshot of the same id does not move it |
| EnhancedService.CreateApp | src/service/EnhancedService.ts:40-47 | a create request for the named app in this service, with public set to false and nothing else; the created app's parent is this service |
| EnhancedService.GetApps | src/service/EnhancedService.ts:49-56 | one list request; one app per listed resource, in listing order, each with this service as parent and with the listed name and properties |
| EnhancedDeployment.TestKeyPattern | src/service/EnhancedDeployment.ts:10 | the scan accepts exactly the keys matching ^[a-zA-Z_][\w.-]*$ |
| EnhancedDeployment.KeyPatternExcludesWhitespace | src/service/EnhancedDeployment.ts:27-39 | a key matching the pattern has no white space, so it is not blank and trimming it changes nothing |
| EnhancedDeployment.ValidateKey | src/service/EnhancedDeployment.ts:27-39 | empty exactly when blank; invalid exactly when non-blank and not matching; too long exactly when matching and over 4000 characters; accepted exactly when matching and at most 4000 |
| EnhancedDeployment.PaddedKeyIsInvalid | src/service/EnhancedDeployment.ts:27-39 | a non-blank key with white space at either end is rejected as invalid rather than trimmed |
| EnhancedDeployment.ValidateValue | src/service/EnhancedDeployment.ts:41-48 | empty exactly when blank; too long exactly when the trimmed value exceeds 4000 UTF-16 code units; never invalid, since no pattern is checked |
| EnhancedDeployment.AstralValueIsTooLong | src/service/EnhancedDeployment.ts:41-48 | 2001 emoji are 4002 code units, so the value is refused as too long although it has fewer than 4000 characters |
| EnhancedDeployment.ArtifactSource | src/service/EnhancedDeployment.ts:64-73 | a build-result source carrying the identifier exactly on Enterprise tier, a JAR source carrying it as relative path otherwise |
| EnhancedDeployment.ArtifactTargetName | src/service/EnhancedDeployment.ts:74-75 | never empty; the deployment's own name whenever that is non-empty |
| EnhancedDeployment.UpdateArtifactPath | src/service/EnhancedDeployment.ts:63-76 | one update, addressed to the deployment (or "default"), carrying only the tier-routed source |
| EnhancedDeployment.ArtifactPathTierIndependentAddress | src/service/EnhancedDeployment.ts:63-76 | changing the service's SKU never changes which deployment the artifact update is addressed to |
| EnhancedDeployment.FormatCpu | src/service/EnhancedDeployment.ts:82 | ends in "m" exactly below one core, and is then the floored millicore count followed by "m"; whole cores print as the floored integer; parsing the string back gives the requested quantity, floored from 1 up |
| EnhancedDeployment.MillicoresRoundTrip | src/service/EnhancedDeployment.ts:131-133 | a millicore string ends in "m" and parses back to the count divided by 1000 |
| EnhancedDeployment.CoresRoundTrip | src/service/EnhancedDeployment.ts:131-133 | a whole-core string has no "m" and parses back to the count |
| EnhancedDeployment.FormatMemory | src/service/EnhancedDeployment.ts:83 | ends in "Mi" exactly below 1 GiB, and is then the floored MiB count followed by "Mi"; otherwise the floored GiB count followed by "Gi"; parsing back gives the requested quantity, floored from 1 up |
| EnhancedDeployment.MebibytesRoundTrip | src/service/EnhancedDeployment.ts:134-136 | a "Mi" string is not read as "Gi" and parses back to the count divided by 1024 |
| EnhancedDeployment.GibibytesRoundTrip | src/service/EnhancedDeployment.ts:134-136 | a "Gi" string is not read as "Mi" and parses back to the count, with no division |
| EnhancedDeployment.ParseCpu | src/service/EnhancedDeployment.ts:131-133 | a missing or empty quantity is 1; with a trailing "m" the parseInt value divided by 1000; otherwise the parseInt value; NaN when parseInt finds no digits |
| EnhancedDeployment.ParseMemory | src/service/EnhancedDeployment.ts:134-136 | a missing or empty quantity is 1; with a trailing "Mi" the parseInt value divided by 1024; otherwise the parseInt value; NaN when parseInt finds no digits |
| EnhancedDeployment.RequestedResources | src/service/EnhancedDeployment.ts:79-87 | both quantities are sent, a missing one counting as 1: the cpu text is FormatCpu of the request and the memory text FormatMemory of it, and each parses back to its rounded request |
| EnhancedDeployment.ScaledSku | src/service/EnhancedDeployment.ts:90-92 | the service SKU's name and tier are kept; the capacity is the requested one, else the service's |
| EnhancedDeployment.DefaultCpuIsOne | src/service/EnhancedDeployment.ts:79-82 | a missing cpu, counted as 1, is sent as "1" |
| EnhancedDeployment.DefaultMemoryIsOneGi | src/service/EnhancedDeployment.ts:79-83 | a missing memory, counted as 1, is sent as "1Gi" |
| EnhancedDeployment.UpdateScaleSettings | src/service/EnhancedDeployment.ts:78-95 | one update to this deployment carrying only the resource requests and the scaled SKU; the cpu sent is FormatCpu of the request (1 when missing) and the memory FormatMemory of it |
| EnhancedDeployment.GetScaleSettings | src/service/EnhancedDeployment.ts:128-138 | each quantity on its own: a missing or empty one reads as 1; a CPU ending in "m" is parseInt divided by 1000 and any other CPU is parseInt; a memory ending in "Mi" is parseInt divided by 1024 and any other memory is parseInt; the capacity is the number of instances, or 0 when none are listed |
| EnhancedDeployment.ScaleRoundTrip | src/service/EnhancedDeployment.ts:78-138 | a deployment holding the requests that were sent reads back the requested quantities: exact below 1, floored from 1 up |
| EnhancedDeployment.UpdateEnvironmentVariables | src/service/EnhancedDeployment.ts:97-101 | one update to this deployment carrying the given map whole as its only setting |
| EnhancedDeployment.GetJvmOptions | src/service/EnhancedDeployment.ts:103-107 | JAVA_OPTS untrimmed whenever it is set, even to ""; else the JAR source's options trimmed; else "" |
| EnhancedDeployment.EnvironmentWithJvmOptions | src/service/EnhancedDeployment.ts:111-112 | the keys are the old ones plus JAVA_OPTS; JAVA_OPTS holds the options; every other entry is kept |
| EnhancedDeployment.UpdateJvmOptions | src/service/EnhancedDeployment.ts:109-126 | on Enterprise tier the whole environment with JAVA_OPTS set is sent; on any other tier a JAR source with the options |
| EnhancedDeployment.EnterpriseJvmOptionsAreEnvironment | src/service/EnhancedDeployment.ts:97-126 | on Enterprise tier the JVM-options update is exactly the environment update with the current environment plus JAVA_OPTS |
| EnhancedDeployment.EnvironmentRoundTrip | src/service/EnhancedDeployment.ts:97-107 | a deployment holding the environment that was sent reads it back, and its JVM options are the sent JAVA_OPTS when the map has one |
| EnhancedDeployment.JvmOptionsRoundTripEnterprise | src/service/EnhancedDeployment.ts:103-126 | on Enterprise tier, reading back the sent environment gives exactly the options written |
| EnhancedDeployment.JvmOptionsRoundTripStandard | src/service/EnhancedDeployment.ts:103-126 | on other tiers, reading back the sent JAR source gives the options trimmed |
| AppService.Target | src/service/AppService.ts:157-160 | the explicit app when given, the constructor target otherwise |
| AppService.ActiveDeployment | src/service/AppService.ts:30 | the active deployment's address under the app's service group, service and name, undefined when it has none |
| AppService.RunLifecycle | src/service/AppService.ts:28-41 | fails exactly when there is no target; otherwise one lifecycle call to the target's active deployment |
| AppService.Start | src/service/AppService.ts:28-31 | fails exactly when there is no target; otherwise a start of the active deployment |
| AppService.Stop | src/service/AppService.ts:33-36 | fails exactly when there is no target; otherwise a stop of the active deployment |
| AppService.Restart | src/service/AppService.ts:38-41 | fails exactly when there is no target; otherwise a restart of the active deployment |
| AppService.NoActiveDeploymentIsNotChecked | src/service/AppService.ts:28-41 | an app without an active deployment is still started, stopped or restarted, with an undefined deployment name |
| AppService.Remove | src/service/AppService.ts:43-46 | fails exactly when there is no target; otherwise one delete of the target app |
| AppService.GetActiveDeployment | src/service/AppService.ts:54-59 | fails exactly when there is no target; otherwise a fetch of the active deployment |
| AppService.SetActiveDeployment | src/service/AppService.ts:61-68 | fails exactly when there is no target; otherwise an app update carrying only the new active deployment name |
| AppService.StartNamedDeployment | src/service/AppService.ts:96-99 | fails exactly when there is no target; otherwise a start of the named deployment |
| AppService.StartNamedIgnoresActive | src/service/AppService.ts:61-99 | starting a named deployment reaches that name with no switch; switching sends an app update, not a start |
| AppService.NewDeploymentResource | src/service/AppService.ts:73-92 | the placeholder JAR "<default>", 1 GiB, the runtime or Java_8, and the fixed S0/Standard SKU with capacity 1 |
| AppService.CreateDeployment | src/service/AppService.ts:70-94 | fails exactly when there is no target; otherwise a put of the named deployment of the target with that body |
| AppService.GetTestEndpoint | src/service/AppService.ts:101-110 | fails exactly when there is no target; otherwise the test keys are listed and the endpoint is "<endpoint>/<app>/default", a missing endpoint printing as "undefined" |
| AppService.GetPublicEndpoint | src/service/AppService.ts:112-118 | fails exactly when there is no target; otherwise an endpoint exactly when the url is set, non-empty and not "None", and then it is that url |
| AppService.SetPublic | src/service/AppService.ts:120-128 | fails exactly when there is no target; otherwise an update of the target app carrying the flag and the constructor target's active deployment name |
| AppService.SetPublicIgnoresArgumentsDeployment | src/service/AppService.ts:120-128 | with no constructor target, toggling a given app sends no active deployment name even when that app has one |
| AppService.StartStreamingLogs | src/service/AppService.ts:143-150 | an instance not "Running" is refused first; a missing target fails next; otherwise the test keys are listed and a stream is opened for (app, instance) with them |
| AppService.StopStreamingLogs | src/service/AppService.ts:152-155 | fails exactly when there is no target; otherwise the stream for (app, instance) is closed, whatever the status |
| AppService.StreamKeysAgree | src/service/AppService.ts:143-155 | starting and stopping address the same app name and instance |
| AppService.GetUploadDefinition | src/service/AppService.ts:130-133 | fails exactly when there is no target; otherwise a request for the target app's upload location |
| AppService.UploadArtifact | src/service/AppService.ts:135-141 | fails exactly when there is no target; otherwise the upload definition is fetched, the file is uploaded to its URL, and the definition is returned |
| AppService.EveryRequestGoesToTarget | src/service/AppService.ts:157-160 | whatever the operation, every request it sends concerns the resolved target: its address, its service, or its log-stream key; the exception is the file upload, which goes to the URL the fetched upload definition names |
| AppService.LifecycleActsOnActiveDeployment | src/service/AppService.ts:28-59 | start, stop and restart act on the deployment getActiveDeployment fetches |
| AppService.SwitchThenActive | src/service/AppService.ts:54-99 | an app holding the properties setActiveDeployment sent has the new deployment active, and start then reaches the deployment startDeployment names |
| AppService.SetPublicKeepsActiveDeployment | src/service/AppService.ts:120-128 | toggling the constructor target's endpoint keeps its active deployment |
| AppService.CreatedDeploymentReadsBack | src/service/AppService.ts:70-94 | a deployment just created is at the address the request named and reads back 1 core, 1 GiB, capacity 0 and no JVM options |
| AppService.PublicEndpointReadsUrl | src/service/AppService.ts:112-118 | an app whose url is a real address reports that address; with the url "None", empty, missing or no properties it reports none |
| AppService.PublicEndpointIsReal | src/service/AppService.ts:112-118 | a reported endpoint is never empty and never "None" |
| AppService.TestEndpointShape | src/service/AppService.ts:106-110 | the test endpoint starts with the printed primary endpoint and ends with the app's name and "/default" |
| InputAppNameStep.TestNamePattern | src/commands/steps/creation/InputAppNameStep.ts:10 | the scan accepts exactly the names matching ^[a-z][a-z0-9-]{2,30}[a-z0-9]$ |
| InputAppNameStep.ValidateAppName | src/commands/steps/creation/InputAppNameStep.ts:34-53 | on the trimmed input: required exactly when blank, invalid exactly when malformed, taken exactly when well formed and listed; the apps are listed only for a well-formed name |
| InputAppNameStep.AcceptedNameShape | src/commands/steps/creation/InputAppNameStep.ts:10 | an accepted name is 4 to 32 characters long, starts with a lower-case letter, does not end with '-' and is not taken |
| InputAppNameStep.PatternNameIsTrimmed | src/commands/steps/creation/InputAppNameStep.ts:10 | a well-formed name has no white space, so trimming leaves it unchanged |
| InputAppNameStep.ListedNames | src/commands/steps/creation/InputAppNameStep.ts:34-53 | the names of the listed apps, one per app, in listing order |
| InputAppNameStep.CreatedAppIsTaken | src/commands/steps/creation/InputAppNameStep.ts:46-50 | once an app created under a well-formed name is among the apps the name check reads, that name is refused as taken |
| InputAppNameStep.Prompt | src/commands/steps/creation/InputAppNameStep.ts:20-24 | the context receives the answer trimmed |
| InputAppNameStep.ShouldPrompt | src/commands/steps/creation/InputAppNameStep.ts:26-28 | no prompt exactly when the context already holds a non-empty name |
| InputAppNameStep.PromptedNameIsSettled | src/commands/steps/creation/InputAppNameStep.ts:20-53 | a prompted answer the validator accepted is stored as a name the validator still accepts, and no second prompt is needed |
| InputAppNameStep.IsRelatedNameAvailable | src/commands/steps/creation/InputAppNameStep.ts:30-32 | never available |
| UploadArtifactStep.TriggersBuildOnFirstLetter | src/commands/steps/deployment/UploadArtifactStep.ts:27 | a build is triggered exactly when the SKU name starts with 'e' or 'E'; the tier plays no part |
| UploadArtifactStep.BuildTriggerExamples | src/commands/steps/deployment/UploadArtifactStep.ts:27 | "E0" triggers a build; "S0", a missing name and a missing SKU do not |
| UploadArtifactStep.TriggersBuild | src/commands/steps/deployment/UploadArtifactStep.ts:27 | a build is triggered only when the SKU has a non-empty name |
| UploadArtifactStep.Priority | src/commands/steps/deployment/UploadArtifactStep.ts:12 | 135 |
| UploadArtifactStep.ShouldExecute | src/commands/steps/deployment/UploadArtifactStep.ts:34-36 | always |
| UploadArtifactStep.Execute | src/commands/steps/deployment/UploadArtifactStep.ts:22-32 | report, upload once, build only when triggered; the context then holds the build id or else the uploaded path, with the upload definition untouched |
| UploadArtifactStep.UploadsOnce | src/commands/steps/deployment/UploadArtifactStep.ts:22-32 | the artifact is uploaded exactly once per run of the step |
| UpdateDeploymentStep.Priority | src/commands/steps/deployment/UpdateDeploymentStep.ts:11 | 140 |
| UpdateDeploymentStep.ShouldExecute | src/commands/steps/deployment/UpdateDeploymentStep.ts:27-29 | always |
| UpdateDeploymentStep.Execute | src/commands/steps/deployment/UpdateDeploymentStep.ts:19-25 | as written: a report, then one artifact update with the upload definition's relative path; the context is unchanged |
| UpdateDeploymentStep.ExecuteForwarding | src/commands/steps/deployment/UpdateDeploymentStep.ts:19-25 | corrected: the artifact update takes the identifier the upload step left in the context |
| UpdateDeploymentStep.UploadedRelativePath | src/commands/steps/deployment/UpdateDeploymentStep.ts:23 | the upload definition's relative path; undefined when the context has no upload definition |
| DeploymentWizard.Insert | src/commands/steps/deployment/UpdateDeploymentStep.ts:11 | inserting a step into a priority-sorted list keeps it sorted and adds exactly that step |
| DeploymentWizard.SortByPriority | src/commands/steps/deployment/UploadArtifactStep.ts:12 | the steps in ascending priority, a permutation of the registration order |
| DeploymentWizard.UploadPrecedesUpdate | src/commands/steps/deployment/UploadArtifactStep.ts:12 | in any priority order every upload step comes before every update step |
| DeploymentWizard.RegistrationOrderIsIrrelevant | src/commands/steps/deployment/UpdateDeploymentStep.ts:11 | whichever order the two steps are registered in, the upload runs first |
| DeploymentWizard.TwoStepRun | src/commands/steps/deployment/UploadArtifactStep.ts:22-32 | a run is the upload step's events followed by the update step's, the update seeing the context the upload left |
| DeploymentWizard.Run | src/commands/steps/deployment/UploadArtifactStep.ts:22-32 | no steps, no events; every step contributes at least two events; the upload definition in the context is never changed |
| DeploymentWizard.AsWrittenIgnoresUploadResult | src/commands/steps/deployment/UpdateDeploymentStep.ts:23 | as written, the update sends the relative path the context held before the upload, whatever the upload produced |
| DeploymentWizard.AsWrittenSendsNoPath | src/commands/steps/deployment/UpdateDeploymentStep.ts:23 | from an empty context on a Standard service, the upload yields "app.jar" but the update sends a JAR source with no path |
| DeploymentWizard.ForwardingPassesUploadResult | src/commands/steps/deployment/UploadArtifactStep.ts:26-30 | corrected, the update sends the uploaded path, or the build id when a build ran |
| DeploymentWizard.StandardDeploymentFlow | src/commands/steps/deployment/UploadArtifactStep.ts:22-32 | corrected: on an S0 Standard service the run is report, upload, report, update, and the update carries a JAR source with the uploaded path |
| DeploymentWizard.EnterpriseDeploymentFlow | src/commands/steps/deployment/UploadArtifactStep.ts:22-32 | corrected: on an E0 Enterprise service the run is report, upload, build, report, update, and the update carries a build-result source with the build id |
| DeploymentWizard.EnterpriseSignalsCanDisagree | src/commands/steps/deployment/UploadArtifactStep.ts:27 | the build trigger (SKU name) and the Enterprise tier (SKU tier) are independent: each can hold without the other |
| DeploymentWizard.UpdateKeepsContext | src/commands/steps/deployment/UpdateDeploymentStep.ts:19-25 | the update step leaves the context as it found it, so a retry sees the same identifier |

## Left out

- The management client, long-running-operation polling and paging are not modelled. Each operation returns the request it would send, and each response is a parameter. The file-share transfer is recorded as one upload request to the definition's URL; an undefined URL is passed on as it is, where the share client would fail.
- The log-streaming transport is left out. Only the requests around it are kept: listing the test keys, and opening or closing a stream for (app, instance).
- `getTestKeys`, `reload`, `getDebuggingConfig`, `enableDebugging`, `disableDebugging` and the deployment's `refresh` are left out. Each is a single pass-through call with no logic of its own.
- `enhanceApp` is left out because it copies properties between objects. Only the target resolution it sets up is modelled.
- Localised messages and output-channel logging are not modelled. The validators return the kind of error; the steps record a progress report by kind.
- The non-null assertions on names and ids (`resource.name!`) are not modelled. Names and ids are plain strings, and an absent one is not distinguished.
- `updateJvmOptions` writes JAVA_OPTS into the cached environment map in place. This mutation is not modelled; only the request it sends is.
- The wizard engine (prompting, cancellation, error display) is left out. `DeploymentWizard` runs the two steps in priority order, and nothing else of the engine.
- `src/commands/index.ts` (command registration) is not part of this model.
- JsText.Trim: only the ASCII blanks, U+00A0, U+2028, U+2029 and U+FEFF count as white space. The other Unicode space separators are left out.
- JsText.ToLower: only ASCII letters are folded.
- JsNumber.ParseIntOfPrinted: integers are exact. The loss of precision above 2^53 is not modelled.
- JsNumber.NatToString: prints every number in plain decimal digits. A template literal prints numbers from 1e21 up in exponent form ("1e+21"), which is not modelled.
- JsNumber.IntToString: carries the same restriction as NatToString, for magnitudes from 1e21 up.
- JsNumber.ParseInt: the radix argument is not modelled, because the code never passes one.
- EnhancedDeployment.FormatCpu: requires a quantity below 1 to be a whole number of millicores, because floating-point printing of arbitrary products is not modelled. It also prints 1e21 cores and more in plain digits, where the source would print exponent form and read back 1.
- EnhancedDeployment.FormatMemory: requires a quantity below 1 to be a whole number of MiB, for the same reason. It also prints 1e21 GiB and more in plain digits, where the source would print exponent form.
- EnhancedDeployment.RequestedResources: carries the same restriction as FormatCpu and FormatMemory.
- EnhancedDeployment.UpdateScaleSettings: carries the same restriction as FormatCpu and FormatMemory.
- EnhancedDeployment.ScaleRoundTrip: carries the same restriction as FormatCpu and FormatMemory.
- EnhancedDeployment.GetScaleSettings: numbers are exact reals or NaN. Infinities, negative zero and rounding are not modelled.
- InputAppNameStep.CreatedAppIsTaken: the name check reads `result.apps` from a `getApps` typed as one page, `{ nextLink?: string; apps: IApp[] }` (InputAppNameStep.ts:47-48). The service's `getApps` (EnhancedService.ts:49-56) walks every page and returns a plain array with no `apps` field, so against that code `result.apps.every` would throw a TypeError. The model takes the listed names as given. It models neither the shape mismatch nor a check limited to the first page.

## Findings

| source | as written | input that shows it | evidently intended | confidence | as-written member | corrected member |
|---|---|---|---|---|---|---|
| src/commands/steps/deployment/UpdateDeploymentStep.ts:23 | the update step sends `context.uploadDefinition?.relativePath`, while the upload step stores its result in `context.relativePathOrBuildResultId` (UploadArtifactStep.ts:26-30), so the path or build id just produced is never sent | an empty context on a Standard service, with the upload returning "app.jar": the update sends a JAR source with no relative path (`DeploymentWizard.AsWrittenSendsNoPath`) | the update sends the identifier the upload step left in the context: the uploaded path, or the build result id after a build | low: the two step files appear to come from different revisions of the wizard context; not executed | UpdateDeploymentStep.Execute | UpdateDeploymentStep.ExecuteForwarding |

=== FILE: app_service.dfy ===
/** App-level operations. An app service is built either around one app (the
    constructor target) or around none, and each operation acts on the app it
    is given or, failing that, on its target. */
module AppService {
  import opened Wrappers
  import opened Resources
  import opened Model
  import JsText
  import JsNumber
  import EnhancedDeployment

  const DEFAULT_RUNTIME: string := "Java_8"
  const PLACEHOLDER_PATH: string := "<default>"
  const NO_PUBLIC_URL: string := "None"
  const RUNNING: string := "Running"

  /** Why an operation throws before sending anything: there is no app to act
      on (a TypeError in the source), or the instance is not running. */
  datatype Failure = TargetMissing | InstanceNotRunning

  datatype AppService = AppService(target: Option<App>)

  /** `getTarget`: the explicit app when given, otherwise the constructor target. */
  function Target(svc: AppService, app: Option<App>): (t: Option<App>)
    ensures app.Some? ==> t == app
    ensures app.None? ==> t == svc.target
  {
    if app.Some? then app else svc.target
  }

  /** The address of the app's active deployment, `undefined` when it has none. */
  function ActiveDeployment(t: App): (at: DeploymentAddress)
    ensures at.resourceGroup == t.service.resourceGroup && at.serviceName == t.service.name
    ensures at.appName == t.name && at.deploymentName == t.ActiveDeploymentName()
  {
    t.DeploymentAt(t.ActiveDeploymentName())
  }

  /** The lifecycle calls addressed to a deployment. */
  datatype LifecycleOp = StartApp | StopApp | RestartApp

  function LifecycleCall(op: LifecycleOp, at: DeploymentAddress): Call {
    match op
    case StartApp => StartDeployment(at)
    case StopApp => StopDeployment(at)
    case RestartApp => RestartDeployment(at)
  }

  /** `start`, `stop`, `restart`: one call addressed to the target's active
      deployment. There is no local check that one exists: an app without an
      active deployment gets the call with an `undefined` deployment name. */
  function RunLifecycle(svc: AppService, op: LifecycleOp, app: Option<App>): (r: Result<Call, Failure>)
    ensures Target(svc, app).None? <==> r == Failure(TargetMissing)
    ensures Target(svc, app).Some? ==> r.Success? && r.value == LifecycleCall(op, ActiveDeployment(Target(svc, app).value))
  {
    match Target(svc, app)
    case None => Failure(TargetMissing)
    case Some(t) => Success(LifecycleCall(op, ActiveDeployment(t)))
  }

  function Start(svc: AppService, app: Option<App>): (r: Result<Call, Failure>)
    ensures r.Failure? <==> Target(svc, app).None?
    ensures r.Success? ==> r.value.StartDeployment? && r.value.deployment == ActiveDeployment(Target(svc, app).value)
  {
    RunLifecycle(svc, StartApp, app)
  }

  function Stop(svc: AppService, app: Option<App>): (r: Result<Call, Failure>)
    ensures r.Failure? <==> Target(svc, app).None?
    ensures r.Success? ==> r.value.StopDeployment? && r.value.deployment == ActiveDeployment(Target(svc, app).value)
  {
    RunLifecycle(svc, StopApp, app)
  }

  function Restart(svc: AppService, app: Option<App>): (r: Result<Call, Failure>)
    ensures r.Failure? <==> Target(svc, app).None?
    ensures r.Success? ==> r.value.RestartDeployment? && r.value.deployment == ActiveDeployment(Target(svc, app).value)
  {
    RunLifecycle(svc, RestartApp, app)
  }

  /** An app with no active deployment is still started, stopped and restarted:
      the call goes out with no deployment name instead of failing locally. */
  lemma NoActiveDeploymentIsNotChecked(svc: AppService, t: App, op: LifecycleOp)
    requires t.ActiveDeploymentName().None?
    ensures RunLifecycle(svc, op, Some(t)).Success?
    ensures RunLifecycle(svc, op, Some(t)).value.deployment.deploymentName.None?
  {
  }

  /** `remove`: delete the target app. */
  function Remove(svc: AppService, app: Option<App>): (r: Result<Call, Failure>)
    ensures r.Failure? <==> Target(svc, app).None?
    ensures r.Success? ==> r.value == DeleteApp(Target(svc, app).value.Address())
  {
    match Target(svc, app)
    case None => Failure(TargetMissing)
    case Some(t) => Success(DeleteApp(t.Address()))
  }

  /** `getActiveDeployment`: fetch the deployment the target names as active. */
  function GetActiveDeployment(svc: AppService, app: Option<App>): (r: Result<Call, Failure>)
    ensures r.Failure? <==> Target(svc, app).None?
    ensures r.Success? ==> r.value == GetDeployment(ActiveDeployment(Target(svc, app).value))
  {
    match Target(svc, app)
    case None => Failure(TargetMissing)
    case Some(t) => Success(GetDeployment(ActiveDeployment(t)))
  }

  /** `setActiveDeployment`: an app update carrying only the new active
      deployment's name; it does not start that deployment. */
  function SetActiveDeployment(svc: AppService, deploymentName: string, app: Option<App>): (r: Result<Call, Failure>)
    ensures r.Failure? <==> Target(svc, app).None?
    ensures r.Success? ==> r.value.PutApp? && r.value.app == Target(svc, app).value.Address()
    ensures r.Success? ==> r.value.appProperties == AppProperties(Some(deploymentName), None, None, None)
  {
    match Target(svc, app)
    case None => Failure(TargetMissing)
    case Some(t) => Success(PutApp(t.Address(), AppProperties(Some(deploymentName), None, None, None)))
  }

  /** `startDeployment`: start the named deployment, whichever is active. */
  function StartNamedDeployment(svc: AppService, deploymentName: string, app: Option<App>): (r: Result<Call, Failure>)
    ensures r.Failure? <==> Target(svc, app).None?
    ensures r.Success? ==> r.value == StartDeployment(Target(svc, app).value.DeploymentAt(Some(deploymentName)))
  {
    match Target(svc, app)
    case None => Failure(TargetMissing)
    case Some(t) => Success(StartDeployment(t.DeploymentAt(Some(deploymentName))))
  }

  /** Switching the active deployment and then starting the app reaches the new
      deployment only through a fresh snapshot: the switch itself starts nothing,
      and `startDeployment` reaches the named deployment with no switch at all. */
  lemma StartNamedIgnoresActive(svc: AppService, t: App, deploymentName: string)
    ensures StartNamedDeployment(svc, deploymentName, Some(t)).value.deployment.deploymentName == Some(deploymentName)
    ensures SetActiveDeployment(svc, deploymentName, Some(t)).value.PutApp?
  {
  }

  /** The deployment body `createDeployment` always sends. */
  function NewDeploymentResource(runtime: Option<string>): (body: DeploymentResource)
    ensures body.properties.Some? && body.sku == Some(Sku(Some("S0"), Some("Standard"), Some(1)))
    ensures body.properties.value.source == Some(Jar(Some(PLACEHOLDER_PATH), None))
    ensures body.properties.value.deploymentSettings.Some?
    ensures body.properties.value.deploymentSettings.value.memoryInGB == Some(1)
    ensures body.properties.value.deploymentSettings.value.runtimeVersion == Some(runtime.GetOr(DEFAULT_RUNTIME))
    ensures runtime.None? ==> body.properties.value.deploymentSettings.value.runtimeVersion == Some("Java_8")
  {
    DeploymentResource(
      Some(DeploymentProperties(
        Some(Jar(Some(PLACEHOLDER_PATH), None)),
        Some(DeploymentSettings(None, None, Some(1), Some(runtime.GetOr(DEFAULT_RUNTIME)))),
        None)),
      Some(Sku(Some("S0"), Some("Standard"), Some(1))))
  }

  /** `createDeployment`: create (or replace) the named deployment of the target
      with the placeholder JAR, 1 GiB and the given runtime (Java 8 when none). */
  function CreateDeployment(svc: AppService, name: string, runtime: Option<string>, app: Option<App>): (r: Result<Call, Failure>)
    ensures r.Failure? <==> Target(svc, app).None?
    ensures r.Success? ==> r.value.PutDeployment?
    ensures r.Success? ==> r.value.deployment == Target(svc, app).value.DeploymentAt(Some(name))
    ensures r.Success? ==> r.value.resource == NewDeploymentResource(runtime)
  {
    match Target(svc, app)
    case None => Failure(TargetMissing)
    case Some(t) => Success(PutDeployment(t.DeploymentAt(Some(name)), NewDeploymentResource(runtime)))
  }

  /** Printing an absent endpoint the way a template literal does. */
  function Interpolated(s: Option<string>): string {
    s.GetOr("undefined")
  }

  /** `getTestEndpoint`: fetch the test keys, then compose
      `<primaryTestEndpoint>/<app name>/default`. An absent endpoint is not an
      error: it prints as "undefined". */
  function GetTestEndpoint(svc: AppService, app: Option<App>, keys: TestKeys): (r: Result<Exchange<string>, Failure>)
    ensures r.Failure? <==> Target(svc, app).None?
    ensures r.Success? ==> r.value.request == ListTestKeys(Target(svc, app).value.service.resourceGroup, Target(svc, app).value.service.name)
    ensures r.Success? ==> r.value.result == Interpolated(keys.primaryTestEndpoint) + "/" + Target(svc, app).value.name + "/default"
  {
    match Target(svc, app)
    case None => Failure(TargetMissing)
    case Some(t) => Success(Exchange(ListTestKeys(t.service.resourceGroup, t.service.name),
                                     Interpolated(keys.primaryTestEndpoint) + "/" + t.name + "/default"))
  }

  /** `getPublicEndpoint`: the app's url when it is set, non-empty and not the
      sentinel "None"; otherwise no endpoint. */
  function GetPublicEndpoint(svc: AppService, app: Option<App>): (r: Result<Option<string>, Failure>)
    ensures r.Failure? <==> Target(svc, app).None?
    ensures r.Success? ==> (r.value.Some? <==> (var url := Target(svc, app).value.Url();
                                                url.Some? && url.value != "" && url.value != NO_PUBLIC_URL))
    ensures r.Success? && r.value.Some? ==> Target(svc, app).value.Url() == r.value
  {
    match Target(svc, app)
    case None => Failure(TargetMissing)
    case Some(t) =>
      var url := t.Url();
      Success(if url.Some? && url.value != "" && url.value != NO_PUBLIC_URL then url else None)
  }

  /** `setPublic`: an app update carrying the flag and the active deployment
      name, which is read from the constructor target rather than from the app
      being updated. */
  function SetPublic(svc: AppService, isPublic: bool, app: Option<App>): (r: Result<Call, Failure>)
    ensures r.Failure? <==> Target(svc, app).None?
    ensures r.Success? ==> r.value.PutApp? && r.value.app == Target(svc, app).value.Address()
    ensures r.Success? ==> r.value.appProperties.publicProperty == Some(isPublic)
    ensures r.Success? ==> (r.value.appProperties.activeDeploymentName
                            == if svc.target.Some? then svc.target.value.ActiveDeploymentName() else None)
    ensures r.Success? ==> r.value.appProperties.url.None? && r.value.appProperties.isPublic.None?
  {
    match Target(svc, app)
    case None => Failure(TargetMissing)
    case Some(t) =>
      var active := if svc.target.Some? then svc.target.value.ActiveDeploymentName() else None;
      Success(PutApp(t.Address(), AppProperties(active, None, None, Some(isPublic))))
  }

  /** On an app service with no target, toggling an explicitly given app sends no
      active deployment name even when that app has one. */
  lemma SetPublicIgnoresArgumentsDeployment(isPublic: bool, t: App)
    requires t.ActiveDeploymentName().Some?
    ensures var r := SetPublic(AppService(None), isPublic, Some(t));
            r.Success? && r.value.appProperties.activeDeploymentName.None?
  {
  }

  /** `startStreamingLogs`: an instance that is not "Running" is refused before
      anything is sent; otherwise the test keys are fetched and a stream keyed by
      (app name, instance) is opened with them. */
  function StartStreamingLogs(svc: AppService, instance: DeploymentInstance, app: Option<App>, keys: TestKeys): (r: Result<seq<Call>, Failure>)
    ensures instance.status != Some(RUNNING) <==> r == Failure(InstanceNotRunning)
    ensures instance.status == Some(RUNNING) && Target(svc, app).None? <==> r == Failure(TargetMissing)
    ensures r.Success? ==> var t := Target(svc, app).value;
            r.value == [ListTestKeys(t.service.resourceGroup, t.service.name), StartLogStream(t.name, keys, instance)]
  {
    var target := Target(svc, app);
    if instance.status != Some(RUNNING) then Failure(InstanceNotRunning)
    else match target
      case None => Failure(TargetMissing)
      case Some(t) => Success([ListTestKeys(t.service.resourceGroup, t.service.name), StartLogStream(t.name, keys, instance)])
  }

  /** `stopStreamingLogs`: close the stream for (app name, instance), whatever the
      instance's status. */
  function StopStreamingLogs(svc: AppService, instance: DeploymentInstance, app: Option<App>): (r: Result<Call, Failure>)
    ensures r.Failure? <==> Target(svc, app).None?
    ensures r.Success? ==> r.value == StopLogStream(Target(svc, app).value.name, instance)
  {
    match Target(svc, app)
    case None => Failure(TargetMissing)
    case Some(t) => Success(StopLogStream(t.name, instance))
  }

  /** Starting and stopping address the same stream key. */
  lemma StreamKeysAgree(svc: AppService, instance: DeploymentInstance, app: Option<App>, keys: TestKeys)
    requires StartStreamingLogs(svc, instance, app, keys).Success?
    ensures StopStreamingLogs(svc, instance, app).Success?
    ensures StartStreamingLogs(svc, instance, app, keys).value[1].appName == StopStreamingLogs(svc, instance, app).value.appName
    ensures StartStreamingLogs(svc, instance, app, keys).value[1].instance == StopStreamingLogs(svc, instance, app).value.instance
  {
  }

  /** `getUploadDefinition`: ask for the target app's upload location. */
  function GetUploadDefinition(svc: AppService, app: Option<App>): (r: Result<Call, Failure>)
    ensures r.Failure? <==> Target(svc, app).None?
    ensures r.Success? ==> r.value == GetUploadUrl(Target(svc, app).value.Address())
  {
    match Target(svc, app)
    case None => Failure(TargetMissing)
    case Some(t) => Success(GetUploadUrl(t.Address()))
  }

  /** The requests of an upload and the definition it returns. */
  datatype Uploaded = Uploaded(requests: seq<Call>, definition: UploadDefinition)

  /** `uploadArtifact`: fetch the target's upload definition (`definition` is the
      response), upload the file at `path` to the definition's URL, and return
      the definition. */
  function UploadArtifact(svc: AppService, path: string, app: Option<App>, definition: UploadDefinition): (r: Result<Uploaded, Failure>)
    ensures r.Failure? <==> Target(svc, app).None?
    ensures r.Success? ==> r.value.requests == [GetUploadDefinition(svc, app).value, UploadFile(definition.uploadUrl, path)]
    ensures r.Success? ==> r.value.definition == definition
  {
    match Target(svc, app)
    case None => Failure(TargetMissing)
    case Some(t) => Success(Uploaded([GetUploadUrl(t.Address()), UploadFile(definition.uploadUrl, path)], definition))
  }

  // ---------------------------------------------------------------------------
  // Properties across operations

  /** A deployment address that belongs to the app `t`. */
  predicate OfApp(at: DeploymentAddress, t: App) {
    at.resourceGroup == t.service.resourceGroup && at.serviceName == t.service.name && at.appName == t.name
  }

  /** A request that concerns the app `t`: an app or deployment request under
      `t`'s (resource group, service, app), a service request to `t`'s service, a
      log stream keyed by `t`'s name, or a file upload. */
  predicate AddressedTo(c: Call, t: App) {
    match c
    case GetService(rg, name) => rg == t.service.resourceGroup && name == t.service.name
    case DeleteService(rg, name) => rg == t.service.resourceGroup && name == t.service.name
    case ListApps(rg, name) => rg == t.service.resourceGroup && name == t.service.name
    case ListTestKeys(rg, name) => rg == t.service.resourceGroup && name == t.service.name
    case CreateApp(a, _) => a == t.Address()
    case PutApp(a, _) => a == t.Address()
    case DeleteApp(a) => a == t.Address()
    case GetUploadUrl(a) => a == t.Address()
    case GetDeployment(at) => OfApp(at, t)
    case PutDeployment(at, _) => OfApp(at, t)
    case UpdateDeployment(at, _) => OfApp(at, t)
    case StartDeployment(at) => OfApp(at, t)
    case StopDeployment(at) => OfApp(at, t)
    case RestartDeployment(at) => OfApp(at, t)
    case StartLogStream(appName, _, _) => appName == t.name
    case StopLogStream(appName, _) => appName == t.name
    case UploadFile(_, _) => true
  }

  /** `getTarget` decides everything: whatever the operation, every request it
      sends concerns the resolved target app. */
  lemma EveryRequestGoesToTarget(svc: AppService, app: Option<App>, op: LifecycleOp, name: string, runtime: Option<string>,
                                 isPublic: bool, keys: TestKeys, instance: DeploymentInstance, path: string, definition: UploadDefinition)
    requires Target(svc, app).Some?
    ensures AddressedTo(RunLifecycle(svc, op, app).value, Target(svc, app).value)
    ensures AddressedTo(Remove(svc, app).value, Target(svc, app).value)
    ensures AddressedTo(GetActiveDeployment(svc, app).value, Target(svc, app).value)
    ensures AddressedTo(SetActiveDeployment(svc, name, app).value, Target(svc, app).value)
    ensures AddressedTo(StartNamedDeployment(svc, name, app).value, Target(svc, app).value)
    ensures AddressedTo(CreateDeployment(svc, name, runtime, app).value, Target(svc, app).value)
    ensures AddressedTo(GetTestEndpoint(svc, app, keys).value.request, Target(svc, app).value)
    ensures AddressedTo(SetPublic(svc, isPublic, app).value, Target(svc, app).value)
    ensures AddressedTo(StopStreamingLogs(svc, instance, app).value, Target(svc, app).value)
    ensures AddressedTo(GetUploadDefinition(svc, app).value, Target(svc, app).value)
    ensures forall c <- UploadArtifact(svc, path, app, definition).value.requests :: AddressedTo(c, Target(svc, app).value)
    ensures StartStreamingLogs(svc, instance, app, keys).Success? ==>
              forall c <- StartStreamingLogs(svc, instance, app, keys).value :: AddressedTo(c, Target(svc, app).value)
  {
    DeploymentRequestsGoToTarget(svc, app, op, name, runtime);
    AppRequestsGoToTarget(svc, app, name, isPublic, path, definition);
    ServiceRequestsGoToTarget(svc, app, keys, instance);
  }

  lemma DeploymentRequestsGoToTarget(svc: AppService, app: Option<App>, op: LifecycleOp, name: string, runtime: Option<string>)
    requires Target(svc, app).Some?
    ensures AddressedTo(RunLifecycle(svc, op, app).value, Target(svc, app).value)
    ensures AddressedTo(GetActiveDeployment(svc, app).value, Target(svc, app).value)
    ensures AddressedTo(StartNamedDeployment(svc, name, app).value, Target(svc, app).value)
    ensures AddressedTo(CreateDeployment(svc, name, runtime, app).value, Target(svc, app).value)
  {
    var t := Target(svc, app).value;
    assert AddressedTo(LifecycleCall(op, ActiveDeployment(t)), t);
  }

  lemma AppRequestsGoToTarget(svc: AppService, app: Option<App>, name: string, isPublic: bool, path: string, definition: UploadDefinition)
    requires Target(svc, app).Some?
    ensures AddressedTo(Remove(svc, app).value, Target(svc, app).value)
    ensures AddressedTo(SetActiveDeployment(svc, name, app).value, Target(svc, app).value)
    ensures AddressedTo(SetPublic(svc, isPublic, app).value, Target(svc, app).value)
    ensures AddressedTo(GetUploadDefinition(svc, app).value, Target(svc, app).value)
    ensures forall c <- UploadArtifact(svc, path, app, definition).value.requests :: AddressedTo(c, Target(svc, app).value)
  {
    var t := Target(svc, app).value;
    var upload := UploadArtifact(svc, path, app, definition).value.requests;
    assert upload == [GetUploadUrl(t.Address()), UploadFile(definition.uploadUrl, path)];
  }

  lemma ServiceRequestsGoToTarget(svc: AppService, app: Option<App>, keys: TestKeys, instance: DeploymentInstance)
    requires Target(svc, app).Some?
    ensures AddressedTo(GetTestEndpoint(svc, app, keys).value.request, Target(svc, app).value)
    ensures AddressedTo(StopStreamingLogs(svc, instance, app).value, Target(svc, app).value)
    ensures StartStreamingLogs(svc, instance, app, keys).Success? ==>
              forall c <- StartStreamingLogs(svc, instance, app, keys).value :: AddressedTo(c, Target(svc, app).value)
  {
    var t := Target(svc, app).value;
    if instance.status == Some(RUNNING) {
      var logs := StartStreamingLogs(svc, instance, app, keys).value;
      assert logs == [ListTestKeys(t.service.resourceGroup, t.service.name), StartLogStream(t.name, keys, instance)];
    }
  }

  /** Start, stop and restart act on the deployment `getActiveDeployment` fetches. */
  lemma LifecycleActsOnActiveDeployment(svc: AppService, app: Option<App>)
    requires Target(svc, app).Some?
    ensures var at := GetActiveDeployment(svc, app).value.deployment;
            && Start(svc, app).value == StartDeployment(at)
            && Stop(svc, app).value == StopDeployment(at)
            && Restart(svc, app).value == RestartDeployment(at)
  {
  }

  /** Switching, then reading the switched app back: an app holding the
      properties `setActiveDeployment` sent has the new deployment active, so
      `getActiveDeployment` and `start` reach the deployment `startDeployment`
      names. */
  lemma SwitchThenActive(svc: AppService, t: App, deploymentName: string)
    ensures var sent := SetActiveDeployment(svc, deploymentName, Some(t)).value;
            var switched := t.(properties := Some(sent.appProperties));
            && switched.ActiveDeploymentName() == Some(deploymentName)
            && GetActiveDeployment(svc, Some(switched)).value == GetDeployment(t.DeploymentAt(Some(deploymentName)))
            && Start(svc, Some(switched)).value == StartNamedDeployment(svc, deploymentName, Some(t)).value
  {
  }

  /** Toggling the public endpoint of the target keeps its active deployment: the
      target holding the properties sent has the same active deployment as before. */
  lemma SetPublicKeepsActiveDeployment(svc: AppService, isPublic: bool)
    requires svc.target.Some?
    ensures var t := svc.target.value;
            var sent := SetPublic(svc, isPublic, None).value;
            ActiveDeployment(t.(properties := Some(sent.appProperties))) == ActiveDeployment(t)
  {
  }

  /** A deployment just created reads back the defaults: 1 core, 1 GiB, no
      instances listed, and no JVM options. */
  lemma CreatedDeploymentReadsBack(svc: AppService, name: string, runtime: Option<string>, app: Option<App>, id: string)
    requires Target(svc, app).Some?
    ensures var created := Deployment(name, id, Target(svc, app).value, CreateDeployment(svc, name, runtime, app).value.resource);
            && created.Address() == CreateDeployment(svc, name, runtime, app).value.deployment
            && EnhancedDeployment.GetScaleSettings(created) == EnhancedDeployment.ScaleReading(JsNumber.Finite(1.0), JsNumber.Finite(1.0), 0)
            && EnhancedDeployment.GetJvmOptions(created) == ""
  {
  }

  /** The test endpoint starts with the printed primary endpoint and ends with
      the app's own segment. */
  lemma TestEndpointShape(svc: AppService, app: Option<App>, keys: TestKeys)
    requires Target(svc, app).Some?
    ensures var url := GetTestEndpoint(svc, app, keys).value.result;
            && JsText.StartsWith(url, Interpolated(keys.primaryTestEndpoint) + "/")
            && JsText.EndsWith(url, "/" + Target(svc, app).value.name + "/default")
  {
    var e := Interpolated(keys.primaryTestEndpoint) + "/";
    var tail := Target(svc, app).value.name + "/default";
    var url := GetTestEndpoint(svc, app, keys).value.result;
    assert url == e + tail;
    assert url[..|e|] == e;
    assert url[|url| - |"/" + tail|..] == "/" + tail;
  }

  /** An app whose url is set to a real address has that address as its public
      endpoint; the same app with the url "None", empty or missing has none. */
  lemma PublicEndpointReadsUrl(svc: AppService, name: string, service: Service, props: AppProperties, u: string)
    requires u != "" && u != NO_PUBLIC_URL
    ensures GetPublicEndpoint(svc, Some(App(name, service, Some(props.(url := Some(u)))))) == Success(Some(u))
    ensures GetPublicEndpoint(svc, Some(App(name, service, Some(props.(url := Some(NO_PUBLIC_URL)))))) == Success(None)
    ensures GetPublicEndpoint(svc, Some(App(name, service, Some(props.(url := Some("")))))) == Success(None)
    ensures GetPublicEndpoint(svc, Some(App(name, service, Some(props.(url := None))))) == Success(None)
    ensures GetPublicEndpoint(svc, Some(App(name, service, None))) == Success(None)
  {
  }

  /** Whatever the target, an endpoint that is reported is neither empty nor the
      sentinel "None". */
  lemma PublicEndpointIsReal(svc: AppService, app: Option<App>)
    requires GetPublicEndpoint(svc, app).Success? && GetPublicEndpoint(svc, app).value.Some?
    ensures GetPublicEndpoint(svc, app).value.value != ""
    ensures GetPublicEndpoint(svc, app).value.value != NO_PUBLIC_URL
  {
  }
}

=== FILE: deployment_wizard.dfy ===
/** The two deployment steps run in ascending priority order against one
    shared context. */
module DeploymentWizard {
  import opened Wrappers
  import opened Resources
  import opened Model
  import opened WizardContext
  import EnhancedService
  import EnhancedDeployment
  import Upload = UploadArtifactStep
  import Update = UpdateDeploymentStep

  datatype Step =
    | UploadStep(upload: Upload.UploadArtifactStep)
    | UpdateStep(update: Update.UpdateDeploymentStep)

  function Priority(step: Step): int {
    match step
    case UploadStep(u) => Upload.Priority(u)
    case UpdateStep(d) => Update.Priority(d)
  }

  predicate SortedByPriority(steps: seq<Step>) {
    forall i, j :: 0 <= i < j < |steps| ==> Priority(steps[i]) <= Priority(steps[j])
  }

  /** `step` placed before the first step of higher or equal priority. */
  function Insert(step: Step, sorted: seq<Step>): (r: seq<Step>)
    requires SortedByPriority(sorted)
    ensures SortedByPriority(r)
    ensures multiset(r) == multiset(sorted) + multiset{step}
    ensures |r| == |sorted| + 1
    ensures r[0] == step || (|sorted| > 0 && r[0] == sorted[0])
  {
    if |sorted| == 0 then [step]
    else if Priority(step) <= Priority(sorted[0]) then [step] + sorted
    else
      var head, tail := sorted[0], sorted[1..];
      var rest := Insert(step, tail);
      assert sorted == [head] + tail;
      assert Priority(head) <= Priority(rest[0]);
      var r := [head] + rest;
      assert forall j :: 0 < j < |r| ==> r[j] == rest[j - 1];
      r
  }

  /** The engine's ordering of the registered steps: ascending priority, a
      permutation of the registration order. */
  function SortByPriority(steps: seq<Step>): (r: seq<Step>)
    ensures SortedByPriority(r)
    ensures multiset(r) == multiset(steps)
  {
    if |steps| == 0 then []
    else
      assert steps == [steps[0]] + steps[1..];
      Insert(steps[0], SortByPriority(steps[1..]))
  }

  /** In any priority order every upload step comes before every update step. */
  lemma UploadPrecedesUpdate(steps: seq<Step>, i: int, j: int)
    requires SortedByPriority(steps)
    requires 0 <= i < |steps| && 0 <= j < |steps|
    requires steps[i].UploadStep? && steps[j].UpdateStep?
    ensures i < j
  {
  }

  /** Whichever order the two steps are registered in, the upload runs first. */
  lemma RegistrationOrderIsIrrelevant(u: Upload.UploadArtifactStep, d: Update.UpdateDeploymentStep)
    ensures SortByPriority([UpdateStep(d), UploadStep(u)]) == [UploadStep(u), UpdateStep(d)]
    ensures SortByPriority([UploadStep(u), UpdateStep(d)]) == [UploadStep(u), UpdateStep(d)]
  {
    assert [UpdateStep(d), UploadStep(u)][1..] == [UploadStep(u)];
    assert [UploadStep(u), UpdateStep(d)][1..] == [UpdateStep(d)];
  }

  /** Which definition of the update step a run uses: the code as written, or
      the one that forwards the upload step's result. */
  datatype Revision = AsWritten | Forwarding

  function ExecuteStep(step: Step, context: DeploymentContext, uploaded: string, built: string, revision: Revision): StepRun {
    match step
    case UploadStep(u) => Upload.Execute(u, context, uploaded, built)
    case UpdateStep(d) =>
      if revision == AsWritten then Update.Execute(d, context) else Update.ExecuteForwarding(d, context)
  }

  /** Every step runs (both always should execute), one after the other, each
      seeing the context the previous one left. */
  function Run(steps: seq<Step>, context: DeploymentContext, uploaded: string, built: string, revision: Revision): (r: StepRun)
    ensures |steps| == 0 ==> r == StepRun([], context)
    ensures |r.events| >= 2 * |steps|
    ensures r.context.uploadDefinition == context.uploadDefinition
    decreases |steps|
  {
    if |steps| == 0 then StepRun([], context)
    else
      var first := ExecuteStep(steps[0], context, uploaded, built, revision);
      var rest := Run(steps[1..], first.context, uploaded, built, revision);
      StepRun(first.events + rest.events, rest.context)
  }

  /** The artifact-path update a run of the upload step then the update step sends. */
  function UpdateCallOf(u: Upload.UploadArtifactStep, d: Update.UpdateDeploymentStep, context: DeploymentContext,
                        uploaded: string, built: string, revision: Revision): Event
  {
    var r := Run(SortByPriority([UploadStep(u), UpdateStep(d)]), context, uploaded, built, revision);
    r.events[|r.events| - 1]
  }

  /** The events of the full run, for one registration order. */
  lemma TwoStepRun(u: Upload.UploadArtifactStep, d: Update.UpdateDeploymentStep, context: DeploymentContext,
                   uploaded: string, built: string, revision: Revision)
    ensures var up := Upload.Execute(u, context, uploaded, built);
            var down := ExecuteStep(UpdateStep(d), up.context, uploaded, built, revision);
            Run(SortByPriority([UploadStep(u), UpdateStep(d)]), context, uploaded, built, revision)
              == StepRun(up.events + down.events, down.context)
  {
    RegistrationOrderIsIrrelevant(u, d);
    var steps := [UploadStep(u), UpdateStep(d)];
    assert steps[1..] == [UpdateStep(d)];
    var up := Upload.Execute(u, context, uploaded, built);
    var down := ExecuteStep(UpdateStep(d), up.context, uploaded, built, revision);
    assert Run([UpdateStep(d)], up.context, uploaded, built, revision) == StepRun(down.events + [], down.context);
    assert down.events + [] == down.events;
  }

  /** As written, the update sends the relative path of whatever upload
      definition the context already held: the path or build id the upload step
      has just produced never reaches it. */
  lemma AsWrittenIgnoresUploadResult(u: Upload.UploadArtifactStep, d: Update.UpdateDeploymentStep,
                                     context: DeploymentContext, uploaded: string, built: string)
    ensures UpdateCallOf(u, d, context, uploaded, built, AsWritten)
         == Send(EnhancedDeployment.UpdateArtifactPath(d.deployment, Update.UploadedRelativePath(context)))
  {
    TwoStepRun(u, d, context, uploaded, built, AsWritten);
  }

  /** The discrepancy on a concrete run: starting from an empty context on a
      Standard-tier service, the upload yields "app.jar" but the update sends a
      JAR source with no path at all. */
  lemma AsWrittenSendsNoPath(u: Upload.UploadArtifactStep, d: Update.UpdateDeploymentStep)
    requires !EnhancedService.IsEnterpriseTier(d.deployment.OwningService())
    ensures var e := UpdateCallOf(u, d, DeploymentContext(None, None), "app.jar", "build-1", AsWritten);
            e.Send? && e.call.UpdateDeployment? && e.call.resource == EnhancedDeployment.SourceOnly(Jar(None, None))
  {
    AsWrittenIgnoresUploadResult(u, d, DeploymentContext(None, None), "app.jar", "build-1");
  }

  /** Forwarding the context field, the update receives exactly what the upload
      step produced: the uploaded path, or the build result id when a build ran. */
  lemma ForwardingPassesUploadResult(u: Upload.UploadArtifactStep, d: Update.UpdateDeploymentStep,
                                     context: DeploymentContext, uploaded: string, built: string)
    ensures UpdateCallOf(u, d, context, uploaded, built, Forwarding)
         == Send(EnhancedDeployment.UpdateArtifactPath(d.deployment,
                   Some(if Upload.TriggersBuild(u.app.service.Sku()) then built else uploaded)))
  {
    TwoStepRun(u, d, context, uploaded, built, Forwarding);
  }

  /** A Standard service with SKU "S0": the artifact is uploaded, no build is
      requested, and the deployment gets a JAR source with the uploaded path. */
  lemma StandardDeploymentFlow(u: Upload.UploadArtifactStep, d: Update.UpdateDeploymentStep,
                               context: DeploymentContext, uploaded: string, built: string)
    requires d.deployment.app == u.app
    requires u.app.service.Sku() == Some(Sku(Some("S0"), Some("Standard"), Some(1)))
    ensures var update := EnhancedDeployment.UpdateArtifactPath(d.deployment, Some(uploaded));
            && Run(SortByPriority([UpdateStep(d), UploadStep(u)]), context, uploaded, built, Forwarding).events
               == [Report(UploadingArtifact(u.artifactPath)), UploadArtifact(u.app.name, u.artifactPath),
                   Report(UpdatingDeployment), Send(update)]
            && update.resource == EnhancedDeployment.SourceOnly(Jar(Some(uploaded), None))
  {
    Upload.TriggersBuildOnFirstLetter(u.app.service.Sku());
    RegistrationOrderIsIrrelevant(u, d);
    TwoStepRun(u, d, context, uploaded, built, Forwarding);
    var up := Upload.Execute(u, context, uploaded, built);
    assert up.events == [Report(UploadingArtifact(u.artifactPath)), UploadArtifact(u.app.name, u.artifactPath)];
  }

  /** An Enterprise service with SKU "E0": the upload is submitted for a build and
      the deployment gets a build-result source with the build's id. */
  lemma EnterpriseDeploymentFlow(u: Upload.UploadArtifactStep, d: Update.UpdateDeploymentStep,
                                 context: DeploymentContext, uploaded: string, built: string)
    requires d.deployment.app == u.app
    requires u.app.service.Sku() == Some(Sku(Some("E0"), Some("Enterprise"), Some(1)))
    ensures var update := EnhancedDeployment.UpdateArtifactPath(d.deployment, Some(built));
            && Run(SortByPriority([UpdateStep(d), UploadStep(u)]), context, uploaded, built, Forwarding).events
               == [Report(UploadingArtifact(u.artifactPath)), UploadArtifact(u.app.name, u.artifactPath),
                   EnqueueBuild(u.app.name, uploaded), Report(UpdatingDeployment), Send(update)]
            && update.resource == EnhancedDeployment.SourceOnly(BuildResult(Some(built)))
  {
    Upload.TriggersBuildOnFirstLetter(u.app.service.Sku());
    RegistrationOrderIsIrrelevant(u, d);
    TwoStepRun(u, d, context, uploaded, built, Forwarding);
    var up := Upload.Execute(u, context, uploaded, built);
    assert up.events == [Report(UploadingArtifact(u.artifactPath)), UploadArtifact(u.app.name, u.artifactPath),
                         EnqueueBuild(u.app.name, uploaded)];
  }

  /** The two Enterprise signals are independent: a service can be on the
      Enterprise tier with a SKU name that triggers no build, and the other way
      round. */
  lemma EnterpriseSignalsCanDisagree(s: Service)
    ensures var e := s.(remote := s.remote.(sku := Some(Sku(Some("S0"), Some("Enterprise"), None))));
            EnhancedService.IsEnterpriseTier(e) && !Upload.TriggersBuild(e.Sku())
    ensures var b := s.(remote := s.remote.(sku := Some(Sku(Some("E0"), Some("Standard"), None))));
            !EnhancedService.IsEnterpriseTier(b) && Upload.TriggersBuild(b.Sku())
  {
    Upload.BuildTriggerExamples(Some("Enterprise"), None);
    Upload.BuildTriggerExamples(Some("Standard"), None);
  }

  /** A failed update leaves the context as the upload step left it, so the
      update can be retried with the same identifier. */
  lemma UpdateKeepsContext(d: Update.UpdateDeploymentStep, context: DeploymentContext, uploaded: string, built: string, revision: Revision)
    ensures ExecuteStep(UpdateStep(d), context, uploaded, built, revision).context == context
  {
  }
}

=== FILE: enhanced_deployment.dfy ===
/** The deployment handle's operations: the environment-variable validators,
    the tier-routed source and JVM-options updates, the environment and scale
    updates, and the readers of JVM options and scale settings. */
module EnhancedDeployment {
  import opened Wrappers
  import JsText
  import opened JsNumber
  import opened Resources
  import opened Model
  import EnhancedService

  const MAX_LENGTH: nat := 4000
  const DEFAULT_DEPLOYMENT_NAME: string := "default"
  const JAVA_OPTS: string := "JAVA_OPTS"

  /** What an environment-variable validator rejects; `None` accepts. */
  datatype SettingError = Empty | Invalid | MaxLength

  // ---------------------------------------------------------------------------
  // Validators

  /** `[a-zA-Z_]` */
  predicate IsKeyHead(c: char) {
    'a' <= c <= 'z' || 'A' <= c <= 'Z' || c == '_'
  }

  /** `[\w.-]`, where `\w` is `[A-Za-z0-9_]` */
  predicate IsKeyTail(c: char) {
    IsKeyHead(c) || '0' <= c <= '9' || c == '.' || c == '-'
  }

  /** The key pattern `^[a-zA-Z_][\w.-]*$`. */
  predicate MatchesKeyPattern(v: string) {
    |v| > 0 && IsKeyHead(v[0]) && forall i :: 1 <= i < |v| ==> IsKeyTail(v[i])
  }

  /** The regular-expression test, one character at a time. */
  method TestKeyPattern(v: string) returns (matched: bool)
    ensures matched <==> MatchesKeyPattern(v)
  {
    if |v| == 0 || !IsKeyHead(v[0]) {
      return false;
    }
    var i := 1;
    while i < |v|
      invariant 1 <= i <= |v|
      invariant forall j :: 1 <= j < i ==> IsKeyTail(v[j])
    {
      if !IsKeyTail(v[i]) {
        return false;
      }
      i := i + 1;
    }
    return true;
  }

  /** A key that matches the pattern has no white space at all, so trimming it is the identity. */
  lemma KeyPatternExcludesWhitespace(v: string)
    requires MatchesKeyPattern(v)
    ensures JsText.NoWhitespace(v) && !JsText.IsBlank(v)
    ensures JsText.Trim(v) == v
    ensures JsText.Utf16Length(v) == |v|
  {
    assert forall i :: 0 <= i < |v| ==> IsKeyTail(v[i]);
    JsText.Utf16LengthOfBmp(v);
  }

  /** `validateKey`: blank after trimming, then the pattern on the untrimmed key,
      then the trimmed length; the first failure wins. A key that matches is
      ASCII, so its length in UTF-16 code units is its number of characters. */
  function ValidateKey(v: string): (r: Option<SettingError>)
    ensures r == Some(Empty) <==> JsText.IsBlank(v)
    ensures r == Some(Invalid) <==> !JsText.IsBlank(v) && !MatchesKeyPattern(v)
    ensures r == Some(MaxLength) <==> MatchesKeyPattern(v) && |v| > MAX_LENGTH
    ensures r == None <==> MatchesKeyPattern(v) && |v| <= MAX_LENGTH
  {
    if MatchesKeyPattern(v) then KeyPatternExcludesWhitespace(v); ValidateKeyChain(v)
    else ValidateKeyChain(v)
  }

  function ValidateKeyChain(v: string): Option<SettingError> {
    if JsText.IsBlank(v) then Some(Empty)
    else if !MatchesKeyPattern(v) then Some(Invalid)
    else if JsText.Utf16Length(JsText.Trim(v)) > MAX_LENGTH then Some(MaxLength)
    else None
  }

  /** A key with white space around it is rejected as invalid, not trimmed. */
  lemma PaddedKeyIsInvalid(v: string)
    requires !JsText.IsBlank(v)
    requires JsText.IsWhitespace(v[0]) || JsText.IsWhitespace(v[|v| - 1])
    ensures ValidateKey(v) == Some(Invalid)
  {
    WhitespaceIsNoKeyChar(v[0]);
    WhitespaceIsNoKeyChar(v[|v| - 1]);
  }

  lemma WhitespaceIsNoKeyChar(c: char)
    ensures JsText.IsWhitespace(c) ==> !IsKeyHead(c) && !IsKeyTail(c)
  {
  }

  /** `validateVal`: blank after trimming, then the trimmed length in UTF-16 code
      units; nothing else is checked. */
  function ValidateValue(v: string): (r: Option<SettingError>)
    ensures r == Some(Empty) <==> JsText.IsBlank(v)
    ensures r == Some(MaxLength) <==> !JsText.IsBlank(v) && JsText.Utf16Length(JsText.Trim(v)) > MAX_LENGTH
    ensures r == None <==> !JsText.IsBlank(v) && JsText.Utf16Length(JsText.Trim(v)) <= MAX_LENGTH
    ensures r != Some(Invalid)
  {
    if JsText.IsBlank(v) then Some(Empty)
    else if JsText.Utf16Length(JsText.Trim(v)) > MAX_LENGTH then Some(MaxLength)
    else None
  }

  /** 2001 characters outside the Basic Multilingual Plane are 4002 code units:
      too long, although there are only 2001 characters. */
  lemma AstralValueIsTooLong()
    ensures ValidateValue(seq(2001, i => '\U{1F600}')) == Some(MaxLength)
  {
    var v := seq(2001, i => '\U{1F600}');
    assert JsText.NoWhitespace(v);
    JsText.Utf16LengthOfAstral(v);
  }

  // ---------------------------------------------------------------------------
  // Request bodies

  /** A body that carries only a source descriptor. */
  function SourceOnly(source: Source): DeploymentResource {
    DeploymentResource(Some(DeploymentProperties(Some(source), None, None)), None)
  }

  /** A body that carries only deployment settings. */
  function SettingsOnly(settings: DeploymentSettings): DeploymentResource {
    DeploymentResource(Some(DeploymentProperties(None, Some(settings), None)), None)
  }

  function EnvironmentOnly(env: map<string, string>): DeploymentResource {
    SettingsOnly(DeploymentSettings(None, Some(env), None, None))
  }

  // ---------------------------------------------------------------------------
  // Artifact path

  /** The source descriptor for an uploaded artifact: a build result on an
      Enterprise-tier service, a JAR path on any other. */
  function ArtifactSource(s: Service, pathOrId: Option<string>): (source: Source)
    ensures source.BuildResult? <==> EnhancedService.IsEnterpriseTier(s)
    ensures source.Jar? <==> !EnhancedService.IsEnterpriseTier(s)
    ensures source.BuildResult? ==> source.buildResultId == pathOrId
    ensures source.Jar? ==> source.relativePath == pathOrId && source.jvmOptions.None?
  {
    if EnhancedService.IsEnterpriseTier(s) then BuildResult(pathOrId) else Jar(pathOrId, None)
  }

  /** The deployment name artifact updates are addressed to: "default" stands in for an empty name. */
  function ArtifactTargetName(d: Deployment): (n: string)
    ensures n != ""
    ensures d.name != "" ==> n == d.name
  {
    if d.name == "" then DEFAULT_DEPLOYMENT_NAME else d.name
  }

  /** `updateArtifactPath`: one update that sends only the tier-routed source. */
  function UpdateArtifactPath(d: Deployment, pathOrId: Option<string>): (call: Call)
    ensures call.UpdateDeployment?
    ensures call.deployment == d.app.DeploymentAt(Some(ArtifactTargetName(d)))
    ensures call.resource == SourceOnly(ArtifactSource(d.OwningService(), pathOrId))
  {
    UpdateDeployment(d.app.DeploymentAt(Some(ArtifactTargetName(d))), SourceOnly(ArtifactSource(d.OwningService(), pathOrId)))
  }

  /** Changing only the service's SKU changes only what is written, never where. */
  lemma ArtifactPathTierIndependentAddress(d: Deployment, sku: Option<Sku>, pathOrId: Option<string>)
    ensures var d' := d.(app := d.app.(service := d.app.service.(remote := d.app.service.remote.(sku := sku))));
            UpdateArtifactPath(d', pathOrId).deployment == UpdateArtifactPath(d, pathOrId).deployment
  {
  }

  // ---------------------------------------------------------------------------
  // Scale settings

  /** `IScaleSettings` as the caller passes it: each part may be left out. */
  datatype ScaleSettings = ScaleSettings(cpu: Option<real>, memory: Option<real>, capacity: Option<int>)

  /** `IScaleSettings` as `getScaleSettings` reads it back from the snapshot. */
  datatype ScaleReading = ScaleReading(cpu: Number, memory: Number, capacity: nat)

  predicate Integral(x: real) {
    x.Floor as real == x
  }

  /** The quantities this model can print exactly: a part below 1 must be a
      whole number of millicores or MiB. */
  predicate CpuPrintable(cpu: real) {
    cpu >= 1.0 || Integral(cpu * 1000.0)
  }

  predicate MemoryPrintable(memory: real) {
    memory >= 1.0 || Integral(memory * 1024.0)
  }

  /** What a quantity becomes after it is sent and read back: below 1 it is
      kept, from 1 up it is floored to a whole number. */
  function Rounded(x: real): real {
    if x < 1.0 then x else x.Floor as real
  }

  /** `parseInt`'s result as a number. */
  function ToNumber(n: Option<int>): Number {
    match n
    case Some(v) => Finite(v as real)
    case None => NaN
  }

  /** The CPU quantity read from the snapshot: absent or empty means 1 core, a
      trailing "m" means millicores, anything else is read as whole cores. */
  function ParseCpu(q: Option<string>): (r: Number)
    ensures q.None? || q == Some("") ==> r == Finite(1.0)
    ensures q.Some? && JsText.EndsWith(q.value, "m") ==>
              (ParseInt(q.value).None? ==> r.NaN?) &&
              (ParseInt(q.value).Some? ==> r == Finite(ParseInt(q.value).value as real / 1000.0))
    ensures q.Some? && q.value != "" && !JsText.EndsWith(q.value, "m") ==>
              (ParseInt(q.value).None? ==> r.NaN?) &&
              (ParseInt(q.value).Some? ==> r == Finite(ParseInt(q.value).value as real))
  {
    if q.None? || q.value == "" then Finite(1.0)
    else if JsText.EndsWith(q.value, "m") then ToNumber(ParseInt(q.value)).DividedBy(1000)
    else ToNumber(ParseInt(q.value))
  }

  /** The memory quantity read from the snapshot: absent or empty means 1 GiB, a
      trailing "Mi" means MiB, anything else (such as "2Gi") is read as GiB. */
  function ParseMemory(q: Option<string>): (r: Number)
    ensures q.None? || q == Some("") ==> r == Finite(1.0)
    ensures q.Some? && JsText.EndsWith(q.value, "Mi") ==>
              (ParseInt(q.value).None? ==> r.NaN?) &&
              (ParseInt(q.value).Some? ==> r == Finite(ParseInt(q.value).value as real / 1024.0))
    ensures q.Some? && q.value != "" && !JsText.EndsWith(q.value, "Mi") ==>
              (ParseInt(q.value).None? ==> r.NaN?) &&
              (ParseInt(q.value).Some? ==> r == Finite(ParseInt(q.value).value as real))
  {
    if q.None? || q.value == "" then Finite(1.0)
    else if JsText.EndsWith(q.value, "Mi") then ToNumber(ParseInt(q.value)).DividedBy(1024)
    else ToNumber(ParseInt(q.value))
  }

  /** The CPU quantity as sent: millicores with "m" below one core, whole cores
      without a suffix otherwise. Reading it back gives `Rounded(cpu)`. */
  function FormatCpu(cpu: real): (q: string)
    requires CpuPrintable(cpu)
    ensures JsText.EndsWith(q, "m") <==> cpu < 1.0
    ensures cpu < 1.0 ==> q == IntToString((cpu * 1000.0).Floor) + "m"
    ensures cpu >= 1.0 ==> q == IntToString(cpu.Floor)
    ensures ParseCpu(Some(q)) == Finite(Rounded(cpu))
  {
    if cpu < 1.0 then
      CpuBelowOne(cpu);
      IntToString((cpu * 1000.0).Floor) + "m"
    else
      CoresRoundTrip(cpu.Floor);
      IntToString(cpu.Floor)
  }

  lemma CpuBelowOne(cpu: real)
    requires cpu < 1.0 && Integral(cpu * 1000.0)
    ensures var q := IntToString((cpu * 1000.0).Floor) + "m";
            JsText.EndsWith(q, "m") && ParseCpu(Some(q)) == Finite(Rounded(cpu))
  {
    MillicoresRoundTrip((cpu * 1000.0).Floor);
    MillicoresBack(cpu);
  }

  /** Below one core, a whole number of millicores divided back is the quantity. */
  lemma MillicoresBack(cpu: real)
    requires cpu < 1.0 && Integral(cpu * 1000.0)
    ensures Rounded(cpu) == (cpu * 1000.0).Floor as real / 1000.0
  {
  }

  /** Below one GiB, a whole number of MiB divided back is the quantity. */
  lemma MebibytesBack(memory: real)
    requires memory < 1.0 && Integral(memory * 1024.0)
    ensures Rounded(memory) == (memory * 1024.0).Floor as real / 1024.0
  {
  }

  lemma MillicoresRoundTrip(n: int)
    ensures var q := IntToString(n) + "m";
            JsText.EndsWith(q, "m") && ParseCpu(Some(q)) == Finite(n as real / 1000.0)
  {
    var q := IntToString(n) + "m";
    EndsWithAppended(IntToString(n), "m");
    ParseIntOfPrinted(n, "m");
    CpuOfParsed(q, n);
  }

  /** The CPU quantity read from text whose `parseInt` value is known. */
  lemma CpuOfParsed(q: string, n: int)
    requires q != "" && ParseInt(q) == Some(n)
    ensures ParseCpu(Some(q)) == Finite(if JsText.EndsWith(q, "m") then n as real / 1000.0 else n as real)
  {
  }

  /** The memory quantity read from text whose `parseInt` value is known. */
  lemma MemoryOfParsed(q: string, n: int)
    requires q != "" && ParseInt(q) == Some(n)
    ensures ParseMemory(Some(q)) == Finite(if JsText.EndsWith(q, "Mi") then n as real / 1024.0 else n as real)
  {
  }

  lemma CoresRoundTrip(n: int)
    ensures var q := IntToString(n);
            !JsText.EndsWith(q, "m") && ParseCpu(Some(q)) == Finite(n as real)
  {
    var q := IntToString(n);
    assert q[|q| - 1] != 'm';
    ParseIntOfPrinted(n, "");
    assert q + "" == q;
    CpuOfParsed(q, n);
  }

  /** A string ends with what was just appended to it. */
  lemma EndsWithAppended(p: string, suffix: string)
    ensures JsText.EndsWith(p + suffix, suffix)
  {
    assert (p + suffix)[|p|..] == suffix;
  }

  /** The memory quantity as sent: MiB with "Mi" below one GiB, whole GiB with
      "Gi" otherwise. Reading it back gives `Rounded(memory)`. */
  function FormatMemory(memory: real): (q: string)
    requires MemoryPrintable(memory)
    ensures JsText.EndsWith(q, "Mi") <==> memory < 1.0
    ensures JsText.EndsWith(q, "Gi") <==> memory >= 1.0
    ensures memory < 1.0 ==> q == IntToString((memory * 1024.0).Floor) + "Mi"
    ensures memory >= 1.0 ==> q == IntToString(memory.Floor) + "Gi"
    ensures ParseMemory(Some(q)) == Finite(Rounded(memory))
  {
    if memory < 1.0 then
      MemoryBelowOne(memory);
      IntToString((memory * 1024.0).Floor) + "Mi"
    else
      GibibytesRoundTrip(memory.Floor);
      IntToString(memory.Floor) + "Gi"
  }

  lemma MemoryBelowOne(memory: real)
    requires memory < 1.0 && Integral(memory * 1024.0)
    ensures var q := IntToString((memory * 1024.0).Floor) + "Mi";
            JsText.EndsWith(q, "Mi") && !JsText.EndsWith(q, "Gi") && ParseMemory(Some(q)) == Finite(Rounded(memory))
  {
    MebibytesRoundTrip((memory * 1024.0).Floor);
    MebibytesBack(memory);
  }

  lemma MebibytesRoundTrip(n: int)
    ensures var q := IntToString(n) + "Mi";
            JsText.EndsWith(q, "Mi") && !JsText.EndsWith(q, "Gi") && ParseMemory(Some(q)) == Finite(n as real / 1024.0)
  {
    var q := IntToString(n) + "Mi";
    EndsWithAppended(IntToString(n), "Mi");
    assert q[|q| - 2] == 'M';
    ParseIntOfPrinted(n, "Mi");
    MemoryOfParsed(q, n);
  }

  lemma GibibytesRoundTrip(n: int)
    ensures var q := IntToString(n) + "Gi";
            JsText.EndsWith(q, "Gi") && !JsText.EndsWith(q, "Mi") && ParseMemory(Some(q)) == Finite(n as real)
  {
    var q := IntToString(n) + "Gi";
    EndsWithAppended(IntToString(n), "Gi");
    assert q[|q| - 2] == 'G';
    ParseIntOfPrinted(n, "Gi");
    MemoryOfParsed(q, n);
  }

  predicate Printable(settings: ScaleSettings) {
    CpuPrintable(settings.cpu.GetOr(1.0)) && MemoryPrintable(settings.memory.GetOr(1.0))
  }

  /** The resource requests sent for `settings`; a part left out counts as 1. */
  function RequestedResources(settings: ScaleSettings): (r: ResourceRequests)
    requires Printable(settings)
    ensures r.cpu == Some(FormatCpu(settings.cpu.GetOr(1.0)))
    ensures r.memory == Some(FormatMemory(settings.memory.GetOr(1.0)))
    ensures ParseCpu(r.cpu) == Finite(Rounded(settings.cpu.GetOr(1.0)))
    ensures ParseMemory(r.memory) == Finite(Rounded(settings.memory.GetOr(1.0)))
  {
    ResourceRequests(Some(FormatCpu(settings.cpu.GetOr(1.0))), Some(FormatMemory(settings.memory.GetOr(1.0))))
  }

  /** A CPU left out of the settings is sent as one core, "1". */
  lemma DefaultCpuIsOne()
    ensures FormatCpu(1.0) == "1"
  {
  }

  /** A memory left out of the settings is sent as one gibibyte, "1Gi". */
  lemma DefaultMemoryIsOneGi()
    ensures FormatMemory(1.0) == "1Gi"
  {
  }

  /** The SKU sent with a scale update: every field of the service's SKU, with the
      capacity replaced by the requested one when there is one. */
  function ScaledSku(serviceSku: Option<Sku>, capacity: Option<int>): (r: Sku)
    ensures serviceSku.Some? ==> r.name == serviceSku.value.name && r.tier == serviceSku.value.tier
    ensures serviceSku.None? ==> r.name.None? && r.tier.None?
    ensures capacity.Some? ==> r.capacity == capacity
    ensures capacity.None? && serviceSku.Some? ==> r.capacity == serviceSku.value.capacity
    ensures capacity.None? && serviceSku.None? ==> r.capacity.None?
  {
    match serviceSku
    case Some(sku) => sku.(capacity := if capacity.Some? then capacity else sku.capacity)
    case None => Sku(None, None, capacity)
  }

  /** `updateScaleSettings`: one update that sends the resource requests and the SKU. */
  function UpdateScaleSettings(d: Deployment, settings: ScaleSettings): (call: Call)
    requires Printable(settings)
    ensures call.UpdateDeployment? && call.deployment == d.Address()
    ensures call.resource.properties
         == Some(DeploymentProperties(None, Some(DeploymentSettings(Some(RequestedResources(settings)), None, None, None)), None))
    ensures call.resource.sku == Some(ScaledSku(d.OwningService().Sku(), settings.capacity))
    ensures call.resource.properties.value.deploymentSettings.value.resourceRequests.value.cpu
         == Some(FormatCpu(settings.cpu.GetOr(1.0)))
    ensures call.resource.properties.value.deploymentSettings.value.resourceRequests.value.memory
         == Some(FormatMemory(settings.memory.GetOr(1.0)))
  {
    UpdateDeployment(d.Address(), DeploymentResource(
      Some(DeploymentProperties(None, Some(DeploymentSettings(Some(RequestedResources(settings)), None, None, None)), None)),
      Some(ScaledSku(d.OwningService().Sku(), settings.capacity))))
  }

  /** The CPU request text of the snapshot, if the snapshot has one. */
  function CpuText(d: Deployment): Option<string> {
    if d.Requests().Some? then d.Requests().value.cpu else None
  }

  /** The memory request text of the snapshot, if the snapshot has one. */
  function MemoryText(d: Deployment): Option<string> {
    if d.Requests().Some? then d.Requests().value.memory else None
  }

  /** `getScaleSettings`: the quantities parsed back, and the number of
      instances (0 when the snapshot lists none). */
  function GetScaleSettings(d: Deployment): (r: ScaleReading)
    ensures d.Requests().None? ==> r.cpu == Finite(1.0) && r.memory == Finite(1.0)
    ensures CpuText(d).None? || CpuText(d) == Some("") ==> r.cpu == Finite(1.0)
    ensures CpuText(d).Some? && CpuText(d).value != "" ==>
              r.cpu == (if JsText.EndsWith(CpuText(d).value, "m")
                        then ToNumber(ParseInt(CpuText(d).value)).DividedBy(1000)
                        else ToNumber(ParseInt(CpuText(d).value)))
    ensures MemoryText(d).None? || MemoryText(d) == Some("") ==> r.memory == Finite(1.0)
    ensures MemoryText(d).Some? && MemoryText(d).value != "" ==>
              r.memory == (if JsText.EndsWith(MemoryText(d).value, "Mi")
                           then ToNumber(ParseInt(MemoryText(d).value)).DividedBy(1024)
                           else ToNumber(ParseInt(MemoryText(d).value)))
    ensures d.Instances().Some? ==> r.capacity == |d.Instances().value|
    ensures d.Instances().None? ==> r.capacity == 0
  {
    ScaleReading(ParseCpu(CpuText(d)), ParseMemory(MemoryText(d)), if d.Instances().Some? then |d.Instances().value| else 0)
  }

  /** Scaling and reading back: a deployment whose snapshot carries the requests
      `UpdateScaleSettings` sent reads back the requested quantities, exactly
      below 1 and floored from 1 up. */
  lemma ScaleRoundTrip(settings: ScaleSettings, updated: Deployment)
    requires Printable(settings)
    requires updated.Requests() == Some(RequestedResources(settings))
    ensures GetScaleSettings(updated).cpu == Finite(Rounded(settings.cpu.GetOr(1.0)))
    ensures GetScaleSettings(updated).memory == Finite(Rounded(settings.memory.GetOr(1.0)))
  {
  }

  // ---------------------------------------------------------------------------
  // Environment variables and JVM options

  /** `updateEnvironmentVariables`: the given map is sent whole, replacing the old one. */
  function UpdateEnvironmentVariables(d: Deployment, env: map<string, string>): (call: Call)
    ensures call.UpdateDeployment? && call.deployment == d.Address()
    ensures call.resource == EnvironmentOnly(env)
  {
    UpdateDeployment(d.Address(), EnvironmentOnly(env))
  }

  /** `getJvmOptions`: `JAVA_OPTS` from the environment, untrimmed, whenever it is
      set (even to ""); otherwise the JAR source's `jvmOptions`, trimmed;
      otherwise "". */
  function GetJvmOptions(d: Deployment): (r: string)
    ensures d.EnvironmentVariables().Some? && JAVA_OPTS in d.EnvironmentVariables().value
        ==> r == d.EnvironmentVariables().value[JAVA_OPTS]
    ensures !(d.EnvironmentVariables().Some? && JAVA_OPTS in d.EnvironmentVariables().value)
        ==> (if d.Source().Some? && d.Source().value.Jar? && d.Source().value.jvmOptions.Some?
             then r == JsText.Trim(d.Source().value.jvmOptions.value)
             else r == "")
  {
    var env := d.EnvironmentVariables();
    if env.Some? && JAVA_OPTS in env.value then env.value[JAVA_OPTS]
    else match d.Source()
      case Some(Jar(_, Some(options))) => JsText.Trim(options)
      case _ => ""
  }

  /** The environment an Enterprise JVM-options update sends: the existing map
      (or an empty one) with `JAVA_OPTS` set and every other entry kept. */
  function EnvironmentWithJvmOptions(existing: Option<map<string, string>>, options: string): (env: map<string, string>)
    ensures env.Keys == existing.GetOr(map[]).Keys + {JAVA_OPTS}
    ensures env[JAVA_OPTS] == options
    ensures forall k :: k in existing.GetOr(map[]) && k != JAVA_OPTS ==> env[k] == existing.GetOr(map[])[k]
  {
    existing.GetOr(map[])[JAVA_OPTS := options]
  }

  /** `updateJvmOptions`: on Enterprise tier the options go into the environment
      as `JAVA_OPTS`; on any other tier into a JAR source's `jvmOptions`. */
  function UpdateJvmOptions(d: Deployment, options: string): (call: Call)
    ensures call.UpdateDeployment? && call.deployment == d.Address()
    ensures EnhancedService.IsEnterpriseTier(d.OwningService())
        ==> call.resource == EnvironmentOnly(EnvironmentWithJvmOptions(d.EnvironmentVariables(), options))
    ensures !EnhancedService.IsEnterpriseTier(d.OwningService())
        ==> call.resource == SourceOnly(Jar(None, Some(options)))
  {
    if EnhancedService.IsEnterpriseTier(d.OwningService()) then
      UpdateDeployment(d.Address(), EnvironmentOnly(EnvironmentWithJvmOptions(d.EnvironmentVariables(), options)))
    else
      UpdateDeployment(d.Address(), SourceOnly(Jar(None, Some(options))))
  }

  /** The environment a deployment update carries, if any. */
  function SentEnvironment(call: Call): Option<map<string, string>> {
    if call.UpdateDeployment? && call.resource.properties.Some? && call.resource.properties.value.deploymentSettings.Some?
    then call.resource.properties.value.deploymentSettings.value.environmentVariables
    else None
  }

  /** On Enterprise tier, setting JVM options is an environment update: the
      environment sent is the current one with `JAVA_OPTS` set. */
  lemma EnterpriseJvmOptionsAreEnvironment(d: Deployment, options: string)
    requires EnhancedService.IsEnterpriseTier(d.OwningService())
    ensures UpdateJvmOptions(d, options) == UpdateEnvironmentVariables(d, EnvironmentWithJvmOptions(d.EnvironmentVariables(), options))
  {
  }

  /** Environment round trip: a deployment holding the environment that was sent
      reads back that environment, and its JVM options are the sent `JAVA_OPTS`
      whenever the map has one. */
  lemma EnvironmentRoundTrip(d: Deployment, env: map<string, string>, updated: Deployment)
    requires updated.EnvironmentVariables() == SentEnvironment(UpdateEnvironmentVariables(d, env))
    ensures updated.EnvironmentVariables() == Some(env)
    ensures JAVA_OPTS in env ==> GetJvmOptions(updated) == env[JAVA_OPTS]
  {
  }

  /** Enterprise round trip: a deployment holding the environment that was sent
      reads back exactly the options written. */
  lemma JvmOptionsRoundTripEnterprise(d: Deployment, options: string, updated: Deployment)
    requires EnhancedService.IsEnterpriseTier(d.OwningService())
    requires updated.EnvironmentVariables() == Some(EnvironmentWithJvmOptions(d.EnvironmentVariables(), options))
    ensures GetJvmOptions(updated) == options
  {
  }

  /** Other tiers: a deployment holding the JAR source that was sent, and no
      `JAVA_OPTS` in its environment, reads back the options trimmed. */
  lemma JvmOptionsRoundTripStandard(d: Deployment, options: string, updated: Deployment)
    requires !EnhancedService.IsEnterpriseTier(d.OwningService())
    requires updated.Source() == SourceOnly(Jar(None, Some(options))).properties.value.source
    requires updated.EnvironmentVariables().None? || JAVA_OPTS !in updated.EnvironmentVariables().value
    ensures GetJvmOptions(updated) == JsText.Trim(options)
  {
  }
}

=== FILE: enhanced_service.dfy ===
/** The service handle: identity, the resource group derived from the resource
    id, the Enterprise-tier predicate, refresh, app creation and app listing. */
module EnhancedService {
  import opened Wrappers
  import JsText
  import opened Resources
  import opened Model

  const ENTERPRISE_TIER: string := "Enterprise"

  /** The resource group named by an id: the piece at index 4 of the id split on
      '/', so `/subscriptions/s/resourceGroups/rg/...` names `rg`. An id with
      fewer than four slashes names none (`undefined`), and nothing is thrown. */
  function ResourceGroupOf(id: string): (rg: Option<string>)
    ensures rg.Some? <==> JsText.CountOf(id, '/') >= 4
    ensures rg.Some? ==> '/' !in rg.value
    ensures rg.Some? ==> |JsText.Split(id, '/')| > 4 && rg.value == JsText.Split(id, '/')[4]
  {
    var parts := JsText.Split(id, '/');
    if |parts| > 4 then Some(parts[4]) else None
  }

  /** The derived group is the fifth '/'-free piece of the id, whatever the
      pieces before it are and whatever follows it: an id in the management
      API's form, `/subscriptions/<subscription>/resourceGroups/<group>/<rest...>`,
      names `<group>`, and so does any other id with the same number of
      slashes in front of the group. */
  lemma {:induction false} ResourceGroupOfArmId(p0: string, p1: string, p2: string, p3: string, group: string, rest: string)
    requires '/' !in p0 && '/' !in p1 && '/' !in p2 && '/' !in p3 && '/' !in group
    requires |rest| == 0 || rest[0] == '/'
    ensures ResourceGroupOf(p0 + "/" + p1 + "/" + p2 + "/" + p3 + "/" + group + rest) == Some(group)
  {
    var t4 := group + rest;
    var t3 := p3 + "/" + t4;
    var t2 := p2 + "/" + t3;
    var t1 := p1 + "/" + t2;
    var id := p0 + "/" + t1;
    assert p0 + "/" + p1 + "/" + p2 + "/" + p3 + "/" + group + rest == id;
    JsText.SplitFirstPiece(group, rest, '/');
    var s4 := JsText.Split(t4, '/');
    assert s4[0] == group;
    JsText.SplitAfterPiece(p3, t4, '/');
    var s3 := [p3] + s4;
    assert s3[1] == group;
    JsText.SplitAfterPiece(p2, t3, '/');
    var s2 := [p2] + s3;
    assert s2[2] == group;
    JsText.SplitAfterPiece(p1, t2, '/');
    var s1 := [p1] + s2;
    assert s1[3] == group;
    JsText.SplitAfterPiece(p0, t1, '/');
    assert JsText.Split(id, '/') == [p0] + s1;
    assert JsText.Split(id, '/')[4] == group;
  }

  /** The cached resource group agrees with the id of the cached snapshot. */
  predicate Coherent(s: Service) {
    s.resourceGroup == ResourceGroupOf(s.remote.id)
  }

  /** `setRemote`: replace the snapshot and re-derive the resource group from the
      new snapshot's id; the handle's own name and id stay as they were. */
  function SetRemote(s: Service, resource: ServiceResource): (r: Service)
    ensures r.name == s.name && r.id == s.id
    ensures r.remote == resource
    ensures Coherent(r)
  {
    s.(remote := resource, resourceGroup := ResourceGroupOf(resource.id))
  }

  /** The constructor: identity from the resource, then `setRemote`. */
  function FromResource(resource: ServiceResource): (s: Service)
    ensures s.name == resource.name && s.id == resource.id
    ensures s.remote == resource
    ensures Coherent(s)
  {
    SetRemote(Service(resource.name, resource.id, resource, None), resource)
  }

  /** `isEnterpriseTier`: a SKU is present and its tier is exactly "Enterprise". */
  predicate IsEnterpriseTier(s: Service)
    ensures IsEnterpriseTier(s) ==> s.Sku().Some? && s.Sku().value.tier.Some? && s.Sku().value.tier.value == "Enterprise"
    ensures s.Sku().Some? && s.Sku().value.tier == Some("enterprise") ==> !IsEnterpriseTier(s)
  {
    s.Sku().Some? && s.Sku().value.tier == Some(ENTERPRISE_TIER)
  }

  /** The tier comparison is exact: case and absence both matter. */
  lemma EnterpriseTierIsExact(s: Service)
    ensures IsEnterpriseTier(s) <==> (s.Sku().Some? && s.Sku().value.tier.Some? && s.Sku().value.tier.value == "Enterprise")
    ensures s.Sku().Some? && s.Sku().value.tier == Some("enterprise") ==> !IsEnterpriseTier(s)
    ensures s.Sku().None? ==> !IsEnterpriseTier(s)
  {
  }

  /** `refresh`: a GET addressed with the group and name held before the refresh,
      then the fetched snapshot replaces the cached one. */
  function Refresh(s: Service, fetched: ServiceResource): (r: Exchange<Service>)
    ensures r.request == GetService(s.resourceGroup, s.name)
    ensures r.result.name == s.name && r.result.id == s.id
    ensures r.result.remote == fetched && Coherent(r.result)
  {
    Exchange(GetService(s.resourceGroup, s.name), SetRemote(s, fetched))
  }

  /** Refreshing changes what the handle caches, never who it is: a refresh with
      the snapshot it already holds leaves a coherent handle unchanged. */
  lemma RefreshWithSameSnapshot(s: Service)
    requires Coherent(s)
    ensures Refresh(s, s.remote).result == s
  {
  }

  /** `remove`: delete the service. */
  function Remove(s: Service): (call: Call)
    ensures call == DeleteService(s.resourceGroup, s.name)
  {
    DeleteService(s.resourceGroup, s.name)
  }

  /** Refreshing a coherent handle with a snapshot of the same resource never
      moves the delete: it still goes to the group the id names. */
  lemma RemoveAfterRefresh(s: Service, fetched: ServiceResource)
    requires Coherent(s) && fetched.id == s.remote.id
    ensures Remove(Refresh(s, fetched).result) == Remove(s)
    ensures Remove(s).resourceGroup == ResourceGroupOf(s.remote.id)
  {
  }

  /** `createApp`: create the app `name` in this service as a private app; the
      handle is built from the created resource with this service as parent. */
  function CreateApp(s: Service, name: string, created: AppResource): (r: Exchange<App>)
    ensures r.request.CreateApp?
    ensures r.request.app == AppAddress(s.resourceGroup, s.name, name)
    ensures r.request.appProperties == AppProperties(None, None, Some(false), None)
    ensures r.result.service == s && r.result.name == created.name
  {
    Exchange(Call.CreateApp(AppAddress(s.resourceGroup, s.name, name), AppProperties(None, None, Some(false), None)),
             AppOf(s, created))
  }

  /** `getApps`: list the apps of this service and wrap each listed resource, in
      listing order, as an app whose parent is this service. */
  method GetApps(s: Service, listing: seq<AppResource>) returns (request: Call, apps: seq<App>)
    ensures request == ListApps(s.resourceGroup, s.name)
    ensures |apps| == |listing|
    ensures forall i :: 0 <= i < |apps| ==> apps[i].service == s
    ensures forall i :: 0 <= i < |apps| ==> apps[i].name == listing[i].name && apps[i].properties == listing[i].properties
  {
    request := ListApps(s.resourceGroup, s.name);
    apps := [];
    var i := 0;
    while i < |listing|
      invariant 0 <= i <= |listing|
      invariant |apps| == i
      invariant forall j :: 0 <= j < i ==> apps[j] == AppOf(s, listing[j])
    {
      apps := apps + [AppOf(s, listing[i])];
      i := i + 1;
    }
  }
}

=== FILE: input_app_name_step.dfy ===
/** The app-creation wizard step that asks for the new app's name and validates it. */
module InputAppNameStep {
  import opened Wrappers
  import JsText
  import opened Resources
  import opened Model
  import EnhancedService

  /** Why a name is refused: the localised messages, by kind. */
  datatype NameError = Empty | Invalid | Exists

  /** The part of the app-creation wizard context this step reads and writes. */
  datatype CreationContext = CreationContext(newAppName: Option<string>)

  predicate IsLowerLetter(c: char) {
    'a' <= c <= 'z'
  }

  /** `[a-z0-9]` */
  predicate IsLowerAlnum(c: char) {
    IsLowerLetter(c) || '0' <= c <= '9'
  }

  /** `[a-z0-9-]` */
  predicate IsNameChar(c: char) {
    IsLowerAlnum(c) || c == '-'
  }

  /** The name pattern `^[a-z][a-z0-9-]{2,30}[a-z0-9]$`: 4 to 32 characters, a
      lower-case letter first, lower-case letters, digits and hyphens inside, and
      no hyphen last. */
  predicate MatchesNamePattern(s: string) {
    && 4 <= |s| <= 32
    && IsLowerLetter(s[0])
    && IsLowerAlnum(s[|s| - 1])
    && forall i :: 1 <= i < |s| - 1 ==> IsNameChar(s[i])
  }

  /** The regular-expression test, one character at a time: the first character,
      then the run of two to thirty middle characters, then the last. */
  method TestNamePattern(s: string) returns (matched: bool)
    ensures matched <==> MatchesNamePattern(s)
  {
    if |s| < 4 || |s| > 32 || !IsLowerLetter(s[0]) || !IsLowerAlnum(s[|s| - 1]) {
      return false;
    }
    var i := 1;
    while i < |s| - 1
      invariant 1 <= i <= |s| - 1
      invariant forall j :: 1 <= j < i ==> IsNameChar(s[j])
    {
      if !IsNameChar(s[i]) {
        return false;
      }
      i := i + 1;
    }
    return true;
  }

  /** A verdict and the requests made to reach it. */
  datatype NameCheck = NameCheck(error: Option<NameError>, requests: seq<Call>)

  /** `validateAppName`: the input is trimmed; a blank name is required, a
      malformed one invalid, and only a well-formed one is looked up among the
      service's apps (`existing` being the names of the apps the step reads
      from the listing's `apps` field). */
  function ValidateAppName(service: Service, input: string, existing: seq<string>): (r: NameCheck)
    ensures r.error == Some(Empty) <==> JsText.IsBlank(input)
    ensures r.error == Some(Invalid) <==> !JsText.IsBlank(input) && !MatchesNamePattern(JsText.Trim(input))
    ensures r.error == Some(Exists) <==> MatchesNamePattern(JsText.Trim(input)) && JsText.Trim(input) in existing
    ensures r.error == None <==> MatchesNamePattern(JsText.Trim(input)) && JsText.Trim(input) !in existing
    ensures r.requests == if MatchesNamePattern(JsText.Trim(input)) then [ListApps(service.resourceGroup, service.name)] else []
  {
    var name := JsText.Trim(input);
    if name == "" then NameCheck(Some(Empty), [])
    else if !MatchesNamePattern(name) then NameCheck(Some(Invalid), [])
    else NameCheck(if name in existing then Some(Exists) else None, [ListApps(service.resourceGroup, service.name)])
  }

  /** An accepted name, once trimmed, is 4 to 32 characters long, starts with a
      lower-case letter, does not end with a hyphen and is not taken. */
  lemma AcceptedNameShape(service: Service, input: string, existing: seq<string>)
    requires ValidateAppName(service, input, existing).error.None?
    ensures var name := JsText.Trim(input);
            4 <= |name| <= 32 && IsLowerLetter(name[0]) && name[|name| - 1] != '-' && name !in existing
  {
  }

  /** A well-formed name has no white space, so trimming leaves it as it is. */
  lemma PatternNameIsTrimmed(name: string)
    requires MatchesNamePattern(name)
    ensures JsText.NoWhitespace(name) && JsText.Trim(name) == name
  {
    assert forall i :: 0 <= i < |name| ==> IsNameChar(name[i]);
  }

  /** The names of the listed apps, in listing order. */
  function ListedNames(listing: seq<AppResource>): (names: seq<string>)
    ensures |names| == |listing|
    ensures forall i :: 0 <= i < |listing| ==> names[i] == listing[i].name
  {
    seq(|listing|, i requires 0 <= i < |listing| => listing[i].name)
  }

  /** Creating an app and listing the service again: once the created app is
      among the listed ones, its name is refused as taken. */
  lemma CreatedAppIsTaken(service: Service, name: string, created: AppResource, listing: seq<AppResource>)
    requires MatchesNamePattern(name)
    requires EnhancedService.CreateApp(service, name, created).result.name == name
    requires created in listing
    ensures ValidateAppName(service, name, ListedNames(listing)).error == Some(Exists)
  {
    PatternNameIsTrimmed(name);
    var i :| 0 <= i < |listing| && listing[i] == created;
    assert ListedNames(listing)[i] == name;
  }

  /** `shouldPrompt`: ask only when the context has no name, or an empty one. */
  predicate ShouldPrompt(context: CreationContext)
    ensures !ShouldPrompt(context) <==> context.newAppName.Some? && |context.newAppName.value| > 0
  {
    context.newAppName.None? || context.newAppName.value == ""
  }

  /** `prompt`: store the input box's answer, trimmed. */
  function Prompt(context: CreationContext, input: string): (r: CreationContext)
    ensures r.newAppName == Some(JsText.Trim(input))
  {
    context.(newAppName := Some(JsText.Trim(input)))
  }

  /** The input box only returns input the validator accepts; the name stored
      from it is itself accepted, and the step is not asked to prompt again. */
  lemma PromptedNameIsSettled(service: Service, context: CreationContext, input: string, existing: seq<string>)
    requires ValidateAppName(service, input, existing).error.None?
    ensures !ShouldPrompt(Prompt(context, input))
    ensures ValidateAppName(service, Prompt(context, input).newAppName.value, existing).error.None?
  {
    JsText.TrimIdempotent(input);
  }

  /** `isRelatedNameAvailable`: no related name is ever offered. */
  function IsRelatedNameAvailable(context: CreationContext, name: string): (available: bool)
    ensures !available
  {
    false
  }
}

=== FILE: jsnumber.dfy ===
/** JavaScript numbers as far as the scale-settings codec needs them: exact
    reals with NaN kept apart, decimal printing of integers, and `parseInt`. */
module JsNumber {
  import opened Wrappers
  import JsText

  /** A JavaScript number. Rounding, infinities and negative zero are not modelled. */
  datatype Number = Finite(value: real) | NaN {

    /** Division by a non-zero constant: NaN stays NaN. */
    function DividedBy(d: int): (r: Number)
      requires d != 0
      ensures r.Finite? <==> this.Finite?
      ensures r.Finite? ==> r.value * (d as real) == value
    {
      match this
      case Finite(v) => Finite(v / (d as real))
      case NaN => NaN
    }
  }

  predicate IsDecimalDigit(c: char) {
    '0' <= c <= '9'
  }

  /** The value of `c` as a digit in any radix up to 36, or -1 when it is not one. */
  function DigitValue(c: char): (d: int)
    ensures -1 <= d < 36
    ensures IsDecimalDigit(c) <==> 0 <= d < 10
  {
    if '0' <= c <= '9' then c as int - '0' as int
    else if 'a' <= c <= 'z' then c as int - 'a' as int + 10
    else if 'A' <= c <= 'Z' then c as int - 'A' as int + 10
    else -1
  }

  predicate IsDigitIn(c: char, radix: nat) {
    0 <= DigitValue(c) < radix
  }

  /** The decimal digit character for `d`. */
  function DigitChar(d: nat): (c: char)
    requires d < 10
    ensures IsDecimalDigit(c) && DigitValue(c) == d
  {
    ('0' as int + d) as char
  }

  /** Decimal printing of a natural number, as `${n}` prints an integral number. */
  function NatToString(n: nat): (s: string)
    ensures |s| >= 1
    ensures forall k :: 0 <= k < |s| ==> IsDecimalDigit(s[k])
    ensures s[0] == '0' ==> n == 0 && s == "0"
  {
    if n < 10 then [DigitChar(n)] else NatToString(n / 10) + [DigitChar(n % 10)]
  }

  /** Decimal printing of an integer, with a leading '-' when it is negative. */
  function IntToString(n: int): (s: string)
    ensures |s| >= 1 && IsDecimalDigit(s[|s| - 1])
    ensures n < 0 ==> s[0] == '-'
    ensures n >= 0 ==> IsDecimalDigit(s[0])
  {
    if n < 0 then "-" + NatToString(-n) else NatToString(n)
  }

  /** The length of the longest prefix of `s` made of digits of `radix`. */
  function DigitRun(s: string, radix: nat): (k: nat)
    ensures k <= |s|
    ensures forall i :: 0 <= i < k ==> IsDigitIn(s[i], radix)
    ensures k < |s| ==> !IsDigitIn(s[k], radix)
  {
    if |s| > 0 && IsDigitIn(s[0], radix) then 1 + DigitRun(s[1..], radix) else 0
  }

  /** The value of a string of digits of `radix`, most significant first. */
  function DigitsValue(s: string, radix: nat): nat
    requires forall i :: 0 <= i < |s| ==> IsDigitIn(s[i], radix)
  {
    if |s| == 0 then 0
    else
      var init := s[..|s| - 1];
      assert forall i :: 0 <= i < |init| ==> init[i] == s[i];
      assert IsDigitIn(s[|s| - 1], radix);
      Place(DigitsValue(init, radix), radix, DigitValue(s[|s| - 1]))
  }

  /** One more digit `low` appended to the value `high` in base `radix`. */
  function Place(high: nat, radix: nat, low: nat): nat
  {
    high * radix + low
  }

  /** The unsigned part of `parseInt`: a `0x`/`0X` prefix selects radix 16,
      otherwise radix 10, and the longest run of digits that follows is the
      value; no digits at all gives NaN (here `None`). */
  function ParseMagnitude(u: string): Option<nat>
  {
    var hex := |u| >= 2 && u[0] == '0' && (u[1] == 'x' || u[1] == 'X');
    var radix := if hex then 16 else 10;
    var body := if hex then u[2..] else u;
    var k := DigitRun(body, radix);
    if k == 0 then None else Some(DigitsValue(body[..k], radix))
  }

  /** The magnitude with the sign applied; NaN stays NaN. */
  function Signed(magnitude: Option<nat>, negative: bool): (r: Option<int>)
    ensures r.None? <==> magnitude.None?
    ensures r.Some? && r.value < 0 ==> negative
  {
    match magnitude
    case None => None
    case Some(m) => Some(if negative then 0 - m else m)
  }

  /** The global `parseInt` with no radix: leading white space is skipped and
      one sign is read before the magnitude. */
  function ParseInt(s: string): (r: Option<int>)
    ensures r.Some? ==> |JsText.TrimStart(s)| > 0
    ensures r.Some? && r.value < 0 ==> |JsText.TrimStart(s)| > 0 && JsText.TrimStart(s)[0] == '-'
    ensures r.Some? && |JsText.TrimStart(s)| > 0 && IsDecimalDigit(JsText.TrimStart(s)[0]) ==> r.value >= 0
  {
    var t := JsText.TrimStart(s);
    if |t| > 0 && (t[0] == '-' || t[0] == '+') then Signed(ParseMagnitude(t[1..]), t[0] == '-')
    else Signed(ParseMagnitude(t), false)
  }

  /** Blank text has no digits: `parseInt` gives NaN. */
  lemma BlankParsesToNaN(s: string)
    requires JsText.AllWhitespace(s)
    ensures ParseInt(s).None?
  {
  }

  /** Reading the digits `NatToString` printed gives the number back. */
  lemma {:induction false} DigitsValueOfNatToString(n: nat)
    ensures DigitsValue(NatToString(n), 10) == n
  {
    var s := NatToString(n);
    if n >= 10 {
      DigitsValueOfNatToString(n / 10);
      assert s[..|s| - 1] == NatToString(n / 10);
      assert DigitsValue(s, 10) == Place(n / 10, 10, n % 10);
    }
  }

  /** The digit run of a digit string followed by a non-digit ends where the digits end. */
  lemma {:induction false} DigitRunOfDigitsThen(d: string, rest: string, radix: nat)
    requires forall i :: 0 <= i < |d| ==> IsDigitIn(d[i], radix)
    requires |rest| == 0 || !IsDigitIn(rest[0], radix)
    ensures DigitRun(d + rest, radix) == |d|
  {
    if |d| > 0 {
      assert (d + rest)[1..] == d[1..] + rest;
      DigitRunOfDigitsThen(d[1..], rest, radix);
    } else {
      assert d + rest == rest;
    }
  }

  /** The magnitude parser reads back printed digits followed by non-digit text
      that cannot turn a lone "0" into a hexadecimal prefix. */
  lemma MagnitudeOfPrinted(m: nat, suffix: string)
    requires |suffix| == 0 || (!IsDecimalDigit(suffix[0]) && suffix[0] != 'x' && suffix[0] != 'X')
    ensures ParseMagnitude(NatToString(m) + suffix) == Some(m)
    ensures IsDecimalDigit((NatToString(m) + suffix)[0])
  {
    var d := NatToString(m);
    var u := d + suffix;
    assert !(|u| >= 2 && u[0] == '0' && (u[1] == 'x' || u[1] == 'X')) by {
      if |u| >= 2 && u[0] == '0' {
        assert d == "0";
        assert u[1] == suffix[0];
      }
    }
    DigitRunOfDigitsThen(d, suffix, 10);
    assert u[..|d|] == d;
    DigitsValueOfNatToString(m);
  }

  /** `parseInt` reads back a printed integer followed by such text. */
  lemma ParseIntOfPrinted(n: int, suffix: string)
    requires |suffix| == 0 || (!IsDecimalDigit(suffix[0]) && suffix[0] != 'x' && suffix[0] != 'X')
    ensures ParseInt(IntToString(n) + suffix) == Some(n)
  {
    if n < 0 {
      ParseIntOfNegativePrinted(n, suffix);
    } else {
      MagnitudeOfPrinted(n, suffix);
      ParseIntOfUnsigned(NatToString(n) + suffix, n);
    }
  }

  lemma ParseIntOfNegativePrinted(n: int, suffix: string)
    requires n < 0
    requires |suffix| == 0 || (!IsDecimalDigit(suffix[0]) && suffix[0] != 'x' && suffix[0] != 'X')
    ensures ParseInt(IntToString(n) + suffix) == Some(n)
  {
    NegativeText(n);
    DropSign(NatToString(-n), suffix);
    MagnitudeOfPrinted(-n, suffix);
    ParseIntOfNegative(IntToString(n) + suffix, -n);
  }

  lemma NegativeText(n: int)
    requires n < 0
    ensures IntToString(n) == ['-'] + NatToString(-n)
  {
  }

  lemma DropSign(d: string, suffix: string)
    ensures |['-'] + d + suffix| > 1 ==> (['-'] + d + suffix)[1..] == d + suffix
  {
    assert forall i :: 0 <= i < |d + suffix| ==> (['-'] + d + suffix)[1..][i] == (d + suffix)[i];
  }

  lemma ParseIntOfUnsigned(u: string, m: nat)
    requires ParseMagnitude(u) == Some(m)
    requires |u| > 0 && IsDecimalDigit(u[0])
    ensures ParseInt(u) == Some(m)
  {
    JsText.TrimStartKeepsNonBlankHead(u);
    assert !(u[0] == '-' || u[0] == '+');
  }

  lemma ParseIntOfNegative(s: string, m: nat)
    requires |s| > 1 && s[0] == '-'
    requires ParseMagnitude(s[1..]) == Some(m)
    ensures ParseInt(s) == Some(0 - m)
  {
    JsText.TrimStartKeepsNonBlankHead(s);
  }
}

=== FILE: jstext.dfy ===
/** The string operations of JavaScript that the control-plane code relies on:
    `trim`, `split` on a one-character separator, `startsWith`/`endsWith`. */
module JsText {

  /** The white-space characters `trim` removes: the ASCII blanks, the no-break
      space, the line and paragraph separators and the byte-order mark. The other
      Unicode space separators are not part of this model. */
  predicate IsWhitespace(c: char) {
    c == ' ' || c == '\t' || c == '\n' || c == '\r' || c == '\U{B}' || c == '\U{C}'
    || c == '\U{A0}' || c == '\U{2028}' || c == '\U{2029}' || c == '\U{FEFF}'
  }

  predicate AllWhitespace(s: string) {
    forall k :: 0 <= k < |s| ==> IsWhitespace(s[k])
  }

  predicate NoWhitespace(s: string) {
    forall k :: 0 <= k < |s| ==> !IsWhitespace(s[k])
  }

  /** `s` with its leading white space removed. */
  function TrimStart(s: string): (r: string)
    ensures |r| <= |s| && r == s[|s| - |r|..]
    ensures forall k :: 0 <= k < |s| - |r| ==> IsWhitespace(s[k])
    ensures |r| > 0 ==> !IsWhitespace(r[0])
  {
    if |s| > 0 && IsWhitespace(s[0]) then TrimStart(s[1..]) else s
  }

  lemma TrimStartKeepsNonBlankHead(s: string)
    requires |s| > 0 && !IsWhitespace(s[0])
    ensures TrimStart(s) == s
  {
  }

  /** `s` with its trailing white space removed. */
  function TrimEnd(s: string): (r: string)
    ensures |r| <= |s| && r == s[..|r|]
    ensures forall k :: |r| <= k < |s| ==> IsWhitespace(s[k])
    ensures |r| > 0 ==> !IsWhitespace(r[|r| - 1])
  {
    if |s| > 0 && IsWhitespace(s[|s| - 1]) then TrimEnd(s[..|s| - 1]) else s
  }

  /** `s` is `r` starting at index `i`, with only white space before and after it. */
  predicate Padded(s: string, i: int, r: string) {
    0 <= i <= |s| - |r| && r == s[i..i + |r|] && AllWhitespace(s[..i]) && AllWhitespace(s[i + |r|..])
  }

  /** `String.prototype.trim`. */
  function Trim(s: string): (r: string)
    ensures |r| <= |s|
    ensures |r| > 0 ==> !IsWhitespace(r[0]) && !IsWhitespace(r[|r| - 1])
    ensures r == [] <==> AllWhitespace(s)
    ensures NoWhitespace(s) ==> r == s
    ensures Padded(s, |s| - |TrimStart(s)|, r)
  {
    var r := TrimEnd(TrimStart(s));
    TrimEdges(s);
    TrimBlank(s);
    TrimClean(s);
    TrimInfix(s);
    r
  }

  lemma TrimEdges(s: string)
    ensures var r := TrimEnd(TrimStart(s));
            |r| > 0 ==> !IsWhitespace(r[0]) && !IsWhitespace(r[|r| - 1])
  {
    var t := TrimStart(s);
    var r := TrimEnd(t);
    if |r| > 0 {
      assert r[0] == t[0];
    }
  }

  lemma TrimBlank(s: string)
    ensures TrimEnd(TrimStart(s)) == [] <==> AllWhitespace(s)
  {
    var t := TrimStart(s);
    if |t| > 0 {
      assert !IsWhitespace(t[0]);
      assert t[0] == s[|s| - |t|];
    } else {
      assert forall k :: 0 <= k < |s| ==> IsWhitespace(s[k]);
    }
  }

  lemma TrimClean(s: string)
    ensures NoWhitespace(s) ==> TrimEnd(TrimStart(s)) == s
  {
    if NoWhitespace(s) && |s| > 0 {
      assert !IsWhitespace(s[0]);
      assert TrimStart(s) == s;
      assert !IsWhitespace(s[|s| - 1]);
    }
  }

  lemma TrimInfix(s: string)
    ensures Padded(s, |s| - |TrimStart(s)|, TrimEnd(TrimStart(s)))
  {
    var t := TrimStart(s);
    var r := TrimEnd(t);
    var i := |s| - |t|;
    assert t == s[i..];
    assert r == t[..|r|];
    assert r == s[i..i + |r|];
    assert AllWhitespace(s[..i]) by {
      assert forall k :: 0 <= k < i ==> s[..i][k] == s[k];
    }
    assert AllWhitespace(s[i + |r|..]) by {
      assert s[i + |r|..] == t[|r|..];
      assert forall k :: 0 <= k < |t| - |r| ==> t[|r|..][k] == t[|r| + k];
    }
    assert Padded(s, i, r);
  }

  /** `s.length`: the number of UTF-16 code units, where a character above
      U+FFFF takes two (a surrogate pair). */
  function Utf16Length(s: string): (n: nat)
    ensures |s| <= n <= 2 * |s|
  {
    if |s| == 0 then 0 else (if s[0] as int > 0xFFFF then 2 else 1) + Utf16Length(s[1..])
  }

  /** Characters of the Basic Multilingual Plane take one code unit each. */
  lemma {:induction false} Utf16LengthOfBmp(s: string)
    requires forall k :: 0 <= k < |s| ==> s[k] as int <= 0xFFFF
    ensures Utf16Length(s) == |s|
  {
    if |s| > 0 {
      Utf16LengthOfBmp(s[1..]);
    }
  }

  /** Characters outside it take two each. */
  lemma {:induction false} Utf16LengthOfAstral(s: string)
    requires forall k :: 0 <= k < |s| ==> s[k] as int > 0xFFFF
    ensures Utf16Length(s) == 2 * |s|
  {
    if |s| > 0 {
      Utf16LengthOfAstral(s[1..]);
    }
  }

  /** A string is blank, in the sense of `!s.trim()`, exactly when it is all white space. */
  predicate IsBlank(s: string) {
    Trim(s) == []
  }

  /** Trimming twice is trimming once. */
  lemma TrimIdempotent(s: string)
    ensures Trim(Trim(s)) == Trim(s)
  {
    var r := Trim(s);
    if |r| > 0 {
      assert TrimStart(r) == r;
      assert TrimEnd(r) == r;
    }
  }

  /** Lower-casing of the ASCII capitals; other characters are kept as they are. */
  function LowerChar(c: char): char {
    if 'A' <= c <= 'Z' then (c as int - 'A' as int + 'a' as int) as char else c
  }

  /** `String.prototype.toLowerCase`, for the ASCII letters only. */
  function ToLower(s: string): (r: string)
    ensures |r| == |s|
    ensures forall i :: 0 <= i < |s| ==> r[i] == LowerChar(s[i])
  {
    seq(|s|, i requires 0 <= i < |s| => LowerChar(s[i]))
  }

  predicate StartsWith(s: string, prefix: string) {
    |prefix| <= |s| && s[..|prefix|] == prefix
  }

  predicate EndsWith(s: string, suffix: string) {
    |suffix| <= |s| && s[|s| - |suffix|..] == suffix
  }

  /** The number of occurrences of `c` in `s`. */
  function CountOf(s: string, c: char): nat {
    if |s| == 0 then 0 else (if s[0] == c then 1 else 0) + CountOf(s[1..], c)
  }

  lemma {:induction false} CountOfConcat(a: string, b: string, c: char)
    ensures CountOf(a + b, c) == CountOf(a, c) + CountOf(b, c)
  {
    if |a| == 0 {
      assert a + b == b;
    } else {
      assert (a + b)[1..] == a[1..] + b;
      CountOfConcat(a[1..], b, c);
    }
  }

  lemma {:induction false} CountOfAbsent(s: string, c: char)
    requires c !in s
    ensures CountOf(s, c) == 0
  {
    if |s| > 0 {
      assert s[0] != c;
      assert c !in s[1..];
      CountOfAbsent(s[1..], c);
    }
  }

  /** The index of the first `c` in `s`, or `|s|` when there is none. */
  function IndexOf(s: string, c: char): (i: nat)
    ensures i <= |s|
    ensures i < |s| ==> s[i] == c
    ensures forall k :: 0 <= k < i ==> s[k] != c
  {
    if |s| == 0 then 0 else if s[0] == c then 0 else 1 + IndexOf(s[1..], c)
  }

  /** The inverse of `Split`: the parts glued together with `sep` between them. */
  function Join(parts: seq<string>, sep: char): string
    requires |parts| >= 1
  {
    if |parts| == 1 then parts[0] else parts[0] + [sep] + Join(parts[1..], sep)
  }

  /** `String.prototype.split` with a one-character separator: the maximal
      separator-free pieces, in order, one more of them than there are separators. */
  function Split(s: string, sep: char): (parts: seq<string>)
    ensures |parts| == CountOf(s, sep) + 1
    ensures forall i :: 0 <= i < |parts| ==> sep !in parts[i]
    ensures Join(parts, sep) == s
    decreases |s|
  {
    var i := IndexOf(s, sep);
    if i == |s| then
      assert sep !in s;
      CountOfAbsent(s, sep);
      [s]
    else
      var head, tail := s[..i], s[i + 1..];
      assert sep !in head;
      var rest := Split(tail, sep);
      assert s == head + [sep] + tail;
      CountOfAbsent(head, sep);
      CountOfConcat(head + [sep], tail, sep);
      CountOfConcat(head, [sep], sep);
      assert CountOf([sep], sep) == 1;
      var parts := [head] + rest;
      assert parts[1..] == rest;
      parts
  }

  /** Splitting a string that starts with a separator-free piece followed by the separator. */
  lemma SplitAfterPiece(a: string, b: string, sep: char)
    requires sep !in a
    ensures Split(a + [sep] + b, sep) == [a] + Split(b, sep)
  {
    var s := a + [sep] + b;
    var i := IndexOf(s, sep);
    assert s[|a|] == sep;
    assert forall k :: 0 <= k < |a| ==> s[k] == a[k];
    assert i == |a|;
    assert s[..i] == a;
    assert s[i + 1..] == b;
  }

  /** The first piece of a string whose leading separator-free run is `a`. */
  lemma SplitFirstPiece(a: string, t: string, sep: char)
    requires sep !in a
    requires |t| == 0 || t[0] == sep
    ensures Split(a + t, sep)[0] == a
  {
    if |t| == 0 {
      assert a + t == a;
    } else {
      assert a + t == a + [sep] + t[1..];
      SplitAfterPiece(a, t[1..], sep);
    }
  }

  /** `Split` undoes `Join` when no piece contains the separator. */
  lemma {:induction false} SplitJoin(parts: seq<string>, sep: char)
    requires |parts| >= 1
    requires forall i :: 0 <= i < |parts| ==> sep !in parts[i]
    ensures Split(Join(parts, sep), sep) == parts
  {
    if |parts| == 1 {
      var s := parts[0];
      assert IndexOf(s, sep) == |s|;
    } else {
      SplitJoin(parts[1..], sep);
      SplitAfterPiece(parts[0], Join(parts[1..], sep), sep);
      assert [parts[0]] + parts[1..] == parts;
    }
  }
}

=== FILE: model.dfy ===
/** The domain handles: a service, an app with a back-reference to its service,
    a deployment with a back-reference to its app. Each wraps the last fetched
    remote representation. */
module Model {
  import opened Wrappers
  import opened Resources

  /** A service. `resourceGroup` is derived from the id of the snapshot by the
      service module and cached here, as the source caches it in a field. */
  datatype Service = Service(name: string, id: string, remote: ServiceResource, resourceGroup: Option<string>) {

    function Sku(): Option<Sku> {
      remote.sku
    }
  }

  datatype App = App(name: string, service: Service, properties: Option<AppProperties>) {

    /** `properties?.activeDeploymentName` */
    function ActiveDeploymentName(): Option<string> {
      match properties
      case Some(p) => p.activeDeploymentName
      case None => None
    }

    /** `properties?.url` */
    function Url(): Option<string> {
      match properties
      case Some(p) => p.url
      case None => None
    }

    function Address(): AppAddress {
      AppAddress(service.resourceGroup, service.name, name)
    }

    /** The address of the deployment of this app named `deploymentName`. */
    function DeploymentAt(deploymentName: Option<string>): DeploymentAddress {
      DeploymentAddress(service.resourceGroup, service.name, name, deploymentName)
    }
  }

  /** The app handle built from a listed or created app resource. */
  function AppOf(service: Service, resource: AppResource): App {
    App(resource.name, service, resource.properties)
  }

  datatype Deployment = Deployment(name: string, id: string, app: App, remote: DeploymentResource) {

    function OwningService(): Service {
      app.service
    }

    /** `properties?.deploymentSettings` */
    function Settings(): Option<DeploymentSettings> {
      match remote.properties
      case Some(p) => p.deploymentSettings
      case None => None
    }

    /** `properties?.deploymentSettings?.environmentVariables` */
    function EnvironmentVariables(): Option<map<string, string>> {
      match Settings()
      case Some(s) => s.environmentVariables
      case None => None
    }

    /** `properties?.deploymentSettings?.resourceRequests` */
    function Requests(): Option<ResourceRequests> {
      match Settings()
      case Some(s) => s.resourceRequests
      case None => None
    }

    /** `properties?.source` */
    function Source(): Option<Source> {
      match remote.properties
      case Some(p) => p.source
      case None => None
    }

    /** `properties?.instances` */
    function Instances(): Option<seq<DeploymentInstance>> {
      match remote.properties
      case Some(p) => p.instances
      case None => None
    }

    /** The address of this deployment under its own name. */
    function Address(): DeploymentAddress {
      app.DeploymentAt(Some(name))
    }
  }
}

=== FILE: resources.dfy ===
/** The remote management API's resource representations and the calls the
    control plane sends through it. Request bodies reuse the representation
    types, with `None` for every property the request leaves out. */
module Resources {
  import opened Wrappers

  /** The pricing SKU of a service or a deployment. */
  datatype Sku = Sku(name: Option<string>, tier: Option<string>, capacity: Option<int>)

  /** A service (cluster) as the API returns it; its name and id are always present. */
  datatype ServiceResource = ServiceResource(name: string, id: string, sku: Option<Sku>, location: Option<string>)

  /** App properties. `isPublic` is the wire property `public`, which app creation
      sends; `publicProperty` is the differently named property the endpoint
      toggle sends. */
  datatype AppProperties = AppProperties(
    activeDeploymentName: Option<string>,
    url: Option<string>,
    isPublic: Option<bool>,
    publicProperty: Option<bool>)

  /** An app as the API returns it. */
  datatype AppResource = AppResource(name: string, properties: Option<AppProperties>)

  /** The source descriptor of a deployment: a JAR addressed by relative path,
      an Enterprise build result addressed by id, or a kind this model does not
      interpret. */
  datatype Source =
    | Jar(relativePath: Option<string>, jvmOptions: Option<string>)
    | BuildResult(buildResultId: Option<string>)
    | OtherSource(kind: string)

  /** CPU and memory quantities as the API spells them ("500m", "2", "512Mi", "2Gi"). */
  datatype ResourceRequests = ResourceRequests(cpu: Option<string>, memory: Option<string>)

  datatype DeploymentSettings = DeploymentSettings(
    resourceRequests: Option<ResourceRequests>,
    environmentVariables: Option<map<string, string>>,
    memoryInGB: Option<int>,
    runtimeVersion: Option<string>)

  /** One running (or not) instance of a deployment. */
  datatype DeploymentInstance = DeploymentInstance(name: Option<string>, status: Option<string>)

  datatype DeploymentProperties = DeploymentProperties(
    source: Option<Source>,
    deploymentSettings: Option<DeploymentSettings>,
    instances: Option<seq<DeploymentInstance>>)

  /** A deployment's properties and SKU; its name and id are held by the handle. */
  datatype DeploymentResource = DeploymentResource(properties: Option<DeploymentProperties>, sku: Option<Sku>)

  datatype TestKeys = TestKeys(primaryTestEndpoint: Option<string>)

  /** Where an artifact is to be uploaded, and the path it gets on the service side. */
  datatype UploadDefinition = UploadDefinition(relativePath: Option<string>, uploadUrl: Option<string>)

  /** The address of an app: (resource group, service name, app name). */
  datatype AppAddress = AppAddress(resourceGroup: Option<string>, serviceName: string, appName: string)

  /** The address of a deployment; the deployment name may be `undefined`. */
  datatype DeploymentAddress = DeploymentAddress(
    resourceGroup: Option<string>,
    serviceName: string,
    appName: string,
    deploymentName: Option<string>)

  /** One request to the remote management client or to the log-stream transport. */
  datatype Call =
    | GetService(resourceGroup: Option<string>, serviceName: string)
    | DeleteService(resourceGroup: Option<string>, serviceName: string)
    | ListApps(resourceGroup: Option<string>, serviceName: string)
    | ListTestKeys(resourceGroup: Option<string>, serviceName: string)
      /** `apps.beginCreateOrUpdateAndWait` */
    | CreateApp(app: AppAddress, appProperties: AppProperties)
      /** `apps.createOrUpdate` */
    | PutApp(app: AppAddress, appProperties: AppProperties)
    | DeleteApp(app: AppAddress)
      /** `apps.getResourceUploadUrl` */
    | GetUploadUrl(app: AppAddress)
    | GetDeployment(deployment: DeploymentAddress)
      /** `deployments.createOrUpdate` */
    | PutDeployment(deployment: DeploymentAddress, resource: DeploymentResource)
      /** `deployments.beginUpdateAndWait` */
    | UpdateDeployment(deployment: DeploymentAddress, resource: DeploymentResource)
    | StartDeployment(deployment: DeploymentAddress)
    | StopDeployment(deployment: DeploymentAddress)
    | RestartDeployment(deployment: DeploymentAddress)
    | StartLogStream(appName: string, keys: TestKeys, instance: DeploymentInstance)
    | StopLogStream(appName: string, instance: DeploymentInstance)
      /** A file upload to the share at `uploadUrl`, outside the management API. */
    | UploadFile(uploadUrl: Option<string>, path: string)

  /** A request together with what the caller builds from its response. */
  datatype Exchange<T> = Exchange(request: Call, result: T)
}

=== FILE: update_deployment_step.dfy ===
/** The second deployment step: point the deployment at the uploaded artifact. */
module UpdateDeploymentStep {
  import opened Wrappers
  import opened Resources
  import opened Model
  import opened WizardContext
  import EnhancedDeployment

  const PRIORITY: int := 140

  datatype UpdateDeploymentStep = UpdateDeploymentStep(deployment: Deployment)

  function Priority(step: UpdateDeploymentStep): (p: int)
    ensures p == PRIORITY
  {
    PRIORITY
  }

  /** `shouldExecute`: always. */
  function ShouldExecute(step: UpdateDeploymentStep, context: DeploymentContext): (yes: bool)
    ensures yes
  {
    true
  }

  /** `context.uploadDefinition?.relativePath` */
  function UploadedRelativePath(context: DeploymentContext): (r: Option<string>)
    ensures context.uploadDefinition.None? ==> r.None?
    ensures r.Some? ==> context.uploadDefinition.Some? && context.uploadDefinition.value.relativePath == r
  {
    match context.uploadDefinition
    case Some(definition) => definition.relativePath
    case None => None
  }

  /** `execute` as written: report progress, then one artifact-path update with the
      upload definition's relative path. The context is left unchanged, and the
      value the upload step leaves in `relativePathOrBuildResultId` is not read. */
  function Execute(step: UpdateDeploymentStep, context: DeploymentContext): (r: StepRun)
    ensures r.events == [Report(UpdatingDeployment),
                         Send(EnhancedDeployment.UpdateArtifactPath(step.deployment, UploadedRelativePath(context)))]
    ensures r.context == context
  {
    StepRun([Report(UpdatingDeployment),
             Send(EnhancedDeployment.UpdateArtifactPath(step.deployment, UploadedRelativePath(context)))],
            context)
  }

  /** `execute` as the deployment flow intends it: the artifact-path update takes
      the identifier the upload step left in the context. */
  function ExecuteForwarding(step: UpdateDeploymentStep, context: DeploymentContext): (r: StepRun)
    ensures r.events == [Report(UpdatingDeployment),
                         Send(EnhancedDeployment.UpdateArtifactPath(step.deployment, context.relativePathOrBuildResultId))]
    ensures r.context == context
  {
    StepRun([Report(UpdatingDeployment),
             Send(EnhancedDeployment.UpdateArtifactPath(step.deployment, context.relativePathOrBuildResultId))],
            context)
  }
}

=== FILE: upload_artifact_step.dfy ===
/** The first deployment step: upload the artifact and, when the SKU name
    starts with e or E, submit it for a build. */
module UploadArtifactStep {
  import opened Wrappers
  import JsText
  import opened Resources
  import opened Model
  import opened WizardContext

  const PRIORITY: int := 135

  datatype UploadArtifactStep = UploadArtifactStep(app: App, artifactPath: string)

  /** The build trigger: the SKU has a name whose lower-case form starts with
      "e". The SKU's tier plays no part. */
  predicate TriggersBuild(sku: Option<Sku>)
    ensures TriggersBuild(sku) ==> sku.Some? && sku.value.name.Some? && |sku.value.name.value| > 0
  {
    sku.Some? && sku.value.name.Some? && JsText.StartsWith(JsText.ToLower(sku.value.name.value), "e")
  }

  /** The trigger reads the first letter of the SKU name, in either case. */
  lemma TriggersBuildOnFirstLetter(sku: Option<Sku>)
    ensures TriggersBuild(sku) <==> sku.Some? && sku.value.name.Some? && |sku.value.name.value| > 0
                                    && (sku.value.name.value[0] == 'e' || sku.value.name.value[0] == 'E')
  {
    if sku.Some? && sku.value.name.Some? && |sku.value.name.value| > 0 {
      var lower := JsText.ToLower(sku.value.name.value);
      assert lower[..1] == [lower[0]];
    }
  }

  /** "E0" triggers a build, "S0" and an absent name do not, whatever the tier. */
  lemma BuildTriggerExamples(tier: Option<string>, capacity: Option<int>)
    ensures TriggersBuild(Some(Sku(Some("E0"), tier, capacity)))
    ensures !TriggersBuild(Some(Sku(Some("S0"), tier, capacity)))
    ensures !TriggersBuild(Some(Sku(None, tier, capacity)))
    ensures !TriggersBuild(None)
  {
    TriggersBuildOnFirstLetter(Some(Sku(Some("E0"), tier, capacity)));
    TriggersBuildOnFirstLetter(Some(Sku(Some("S0"), tier, capacity)));
  }

  function Priority(step: UploadArtifactStep): (p: int)
    ensures p == PRIORITY
  {
    PRIORITY
  }

  /** `shouldExecute`: always. */
  function ShouldExecute(step: UploadArtifactStep, context: DeploymentContext): (yes: bool)
    ensures yes
  {
    true
  }

  /** `execute`: report progress, upload the step's artifact once, build the
      result when the service's SKU triggers it, and leave the uploaded path, or
      the build result id, in the context. `uploaded` and `built` are what the
      app's upload and build operations return. */
  function Execute(step: UploadArtifactStep, context: DeploymentContext, uploaded: string, built: string): (r: StepRun)
    ensures |r.events| >= 2
    ensures r.events[0] == Report(UploadingArtifact(step.artifactPath))
    ensures r.events[1] == UploadArtifact(step.app.name, step.artifactPath)
    ensures TriggersBuild(step.app.service.Sku()) ==> r.events[2..] == [EnqueueBuild(step.app.name, uploaded)]
    ensures !TriggersBuild(step.app.service.Sku()) ==> |r.events| == 2
    ensures r.context.relativePathOrBuildResultId == Some(if TriggersBuild(step.app.service.Sku()) then built else uploaded)
    ensures r.context.uploadDefinition == context.uploadDefinition
  {
    var report := [Report(UploadingArtifact(step.artifactPath)), UploadArtifact(step.app.name, step.artifactPath)];
    var afterUpload := context.(relativePathOrBuildResultId := Some(uploaded));
    if TriggersBuild(step.app.service.Sku()) then
      StepRun(report + [EnqueueBuild(step.app.name, uploaded)], afterUpload.(relativePathOrBuildResultId := Some(built)))
    else
      StepRun(report, afterUpload)
  }

  /** The artifact is uploaded exactly once, and a build is requested at most once. */
  lemma UploadsOnce(step: UploadArtifactStep, context: DeploymentContext, uploaded: string, built: string)
    ensures var events := Execute(step, context, uploaded, built).events;
            forall i :: 0 <= i < |events| && events[i].UploadArtifact? ==> i == 1
  {
  }
}

=== FILE: wizard_context.dfy ===
/** What the deployment wizard's steps share and what they do that can be observed. */
module WizardContext {
  import opened Wrappers
  import opened Resources

  /** The part of the deployment wizard context the two steps touch. */
  datatype DeploymentContext = DeploymentContext(
    uploadDefinition: Option<UploadDefinition>,
    relativePathOrBuildResultId: Option<string>)

  /** The progress messages, by kind. */
  datatype ProgressMessage = UploadingArtifact(artifactPath: string) | UpdatingDeployment

  /** One observable effect of a step: a progress report, a call into the app's
      opaque upload and build operations, or a request to the management API. */
  datatype Event =
    | Report(message: ProgressMessage)
    | UploadArtifact(appName: string, artifactPath: string)
    | EnqueueBuild(appName: string, relativePath: string)
    | Send(call: Call)

  /** The effects of running a step, in order, and the context it leaves. */
  datatype StepRun = StepRun(events: seq<Event>, context: DeploymentContext)
}

=== FILE: wrappers.dfy ===
/** Optional values and results, standing in for JavaScript's `undefined` and thrown errors. */
module Wrappers {

  /** A value that may be absent (`undefined` in the source). */
  datatype Option<+T> = None | Some(value: T) {

    /** The value, or `default` when absent: the `??` operator. */
    function GetOr(default: T): T {
      match this
      case Some(v) => v
      case None => default
    }
  }

  /** The outcome of an operation that either returns a value or throws. */
  datatype Result<+T, +E> = Success(value: T) | Failure(error: E)
}
